=== FILE: README.md ===
# Easy-vend in Dafny

This project models Easy-vend, a single-page utility-vending console. Property staff use it to register
11-digit electricity meters, vend prepaid recharge tokens against them, and read
revenue reports. The model covers the pages that carry the console's logic:

- **Token vending** (`Vending`):
  - the charge / net amount / units breakdown, including the two-decimal rounding of units;
  - the five-step validation, where the first failing step wins;
  - the `XXXX XXXX XXXX XXXX` token code;
  - minting a batch of tokens in a loop;
  - the "your last five vends" panel.
  - `VendingPage` is a class that holds the page's state: the form, tokens, error, confirmation and loading flags.
- **Meter registry** (`Meters`):
  - the `^\d{11}$` check;
  - duplicate detection, which ignores the meter being edited;
  - add, edit and status toggle;
  - the modal's field handlers (the meter number keeps digits only) and closing it without saving;
  - the search filter.
  - `MeterRegistry` is the class for that page's state. Its invariant says meter numbers and ids are pairwise distinct.
- **Reports** (`Reports`, `Csv`):
  - the date-range filter and the three totals;
  - the CSV export. Its escaping is tied by lemmas to a reader that parses fields as RFC 4180 does (section 2: double-quoted fields, `""` for a quote) but takes a bare line feed, not CRLF, as the record break, as the export writes it.
- **Dashboard** (`Dashboard`): the four role-dependent statistic cards and the five most recent vends.
- **Sign-up and login** (`SignUp`, `Login`):
  - the password checks;
  - the fixed demonstration accounts;
  - each form's state, as the classes `SignUpPage` and `LoginPage`.
- **Sidebar and application shell** (`Sidebar`, `App`):
  - the role-filtered navigation table and the highlighted button;
  - the session state;
  - the guard that shows the login page to anonymous visitors;
  - the page switch (`App` class).

Shared pieces:
- `Seqs`: `filter`, `reduce` with `+`, and order-preserving sub-lists.
- `Text`: digit stripping, the UTF-16 `length` of a string, substring search, ASCII lower-casing, and decimal printing.
- `Types`: the records of `types.ts`.

Money amounts are `real`. Timestamps are integers. Randomness, clock readings and fresh ids enter as parameters.

Points to note about the source:
- The CSV column headed "Service Charge" holds each token's computed `totalServiceCharge`, not its configured
  `serviceCharge` (`pages/Reports.tsx:49`).
- The header line is written without escaping, while every data field is escaped.
- The export covers the date-filtered tokens, not the full list.
- A flat service charge is not capped at the amount. The negative net amount it produces is caught only by validation.

## Model

| member | source | states |
|---|---|---|
| Text.StripNonDigits | pages/TokenVending.tsx:176 | the meter-number field keeps only digits, each digit as many times as it was typed, and nothing else; it never grows; text that is already all digits passes unchanged |
| Text.StripIdempotent | pages/TokenVending.tsx:176 | stripping an already stripped value changes nothing |
| Text.StripKeepsOrder | pages/TokenVending.tsx:176 | the kept digits are a sub-list of the typed text, in typed order |
| Text.Utf16Length | pages/TokenVending.tsx:61 | `length` counts at least one and at most two code units per character |
| Text.Utf16LengthBmp | pages/TokenVending.tsx:61 | `length` counts UTF-16 code units: it equals the number of characters exactly when none lies beyond U+FFFF |
| Text.DigitsUtf16Length | pages/TokenVending.tsx:61 | a digit string's `length` is its number of characters |
| Text.EmojiUtf16Length | pages/SignUp.tsx:32 | three characters beyond U+FFFF have a `length` of 6 |
| Text.ContainsAt | pages/MeterManagement.tsx:98-102 | `includes` holds exactly when the needle occurs at some position of the text |
| Text.EmptyIsContained | pages/MeterManagement.tsx:98-102 | every text includes the empty search string |
| Text.DecimalRoundTrip | pages/TokenVending.tsx:57 | reading back the printed decimal digits of a number gives the number |
| Text.FourDigitLength | pages/TokenVending.tsx:57 | a number from 1000 to 9999 prints as exactly four digits |
| Meters.ValidMeterNumberIff | pages/MeterManagement.tsx:36-38 | `^\d{11}$` accepts a string exactly when it has 11 characters, all decimal digits |
| Meters.IsDuplicate | pages/MeterManagement.tsx:70 | no duplicate exactly when every meter holding the number is the one being edited; when adding, any holder is a duplicate |
| Meters.NewMeter | pages/MeterManagement.tsx:79-83 | a new meter has the fresh id, the creation time and the five form fields |
| Meters.Overwrite | pages/MeterManagement.tsx:77 | an edited meter keeps its id and creation time and takes the five form fields |
| Meters.ApplyEdit | pages/MeterManagement.tsx:76-77 | the list keeps its length; the meter with the edited id is overwritten from the form; every other meter is unchanged |
| Meters.Toggled | pages/MeterManagement.tsx:90-96 | the list keeps its length; the meter with the id flips between Active and Inactive and keeps every other field; other meters are unchanged |
| Meters.ToggleInvolution | pages/MeterManagement.tsx:90-96 | toggling the same id twice restores the list |
| Meters.ToggleKeepsDistinct | pages/MeterManagement.tsx:90-96 | toggling keeps meter numbers and ids pairwise distinct |
| Meters.MatchesSearch | pages/MeterManagement.tsx:98-102 | a meter matches exactly when the search text occurs in its number, or, ignoring ASCII case, in its tenant name or property; the empty search matches every meter |
| Meters.AddKeepsDistinct | pages/MeterManagement.tsx:69-84 | prepending a new meter whose number passed the duplicate check and whose id is fresh keeps numbers and ids distinct |
| Meters.EditKeepsDistinct | pages/MeterManagement.tsx:69-77 | an edit whose number passed the duplicate check, which skips the meter being edited, keeps numbers and ids distinct |
| Meters.FilterMeters | pages/MeterManagement.tsx:98-102 | the shown rows are an in-order sub-list of the meters; each matches the search; every matching meter is shown, as many times as it is listed |
| Meters.EmptySearchKeepsAll | pages/MeterManagement.tsx:98-102 | an empty search shows every meter in list order |
| Meters.MeterRegistry.constructor | pages/MeterManagement.tsx:10-30 | the saved list, or else the two seed meters, each with its own id and creation time, which satisfy the invariant when the ids differ; the modal is closed and the form, search and error are empty |
| Meters.MeterRegistry.OpenAdd | pages/MeterManagement.tsx:40-45 | no meter is being edited; the form is blank with status Active; the error is cleared; the modal is open; the meters are untouched |
| Meters.MeterRegistry.OpenEdit | pages/MeterManagement.tsx:47-58 | the meter is being edited; the form is loaded from its five fields; the error is cleared; the modal is open |
| Meters.MeterRegistry.CloseModal | pages/MeterManagement.tsx:228-235 | the backdrop, the close button and Cancel close the modal and change nothing else |
| Meters.MeterRegistry.SetMeterNumber | pages/MeterManagement.tsx:256 | the form's meter number becomes the typed text with every non-digit dropped, so it holds digits only; nothing else changes |
| Meters.MeterRegistry.SetTenantName | pages/MeterManagement.tsx:268 | only the form's tenant name changes, to the typed text |
| Meters.MeterRegistry.SetProperty | pages/MeterManagement.tsx:280 | only the form's property changes, to the typed text |
| Meters.MeterRegistry.SetUnit | pages/MeterManagement.tsx:292 | only the form's unit changes, to the typed text |
| Meters.MeterRegistry.SetStatus | pages/MeterManagement.tsx:302 | only the form's status changes, to the chosen one |
| Meters.MeterRegistry.Save | pages/MeterManagement.tsx:60-88 | a malformed number sets its message and leaves the list alone; so does a duplicate; otherwise the edit is applied or a new meter is put in front and the modal closes; with a fresh id the invariant is kept |
| Meters.MeterRegistry.ToggleStatus | pages/MeterManagement.tsx:90-96 | the list becomes `Toggled` of the old list; the invariant is kept |
| Meters.MeterRegistry.SetSearch | pages/MeterManagement.tsx:18 | only the search text changes |
| Vending.Round2 | pages/TokenVending.tsx:52 | two-decimal rounding gives a whole number of hundredths, moves a value by at most half a hundredth, and never changes its sign |
| Vending.Calculate | pages/TokenVending.tsx:36-54 | a flat charge is the configured charge and a percentage charge is that share of the amount; net = amount − charge; units are never negative; units are a whole number of hundredths; units are zero when the tariff or the net amount is not positive, and otherwise lie within half a hundredth of net / tariff |
| Vending.PercentageChargeBounded | pages/TokenVending.tsx:40-46 | a percentage from 0 to 100 of a non-negative amount is a charge from 0 to the amount, so the net amount is not negative |
| Vending.FlatChargeAboveAmount | pages/TokenVending.tsx:40-47 | a flat charge above the amount gives a negative net amount and zero units |
| Vending.FlatScenario | pages/TokenVending.tsx:36-54 | 1000 at tariff 25.5 with a flat charge of 150 gives charge 150, net 850 and 33.33 units |
| Vending.PercentageScenario | pages/TokenVending.tsx:36-54 | 1000 at tariff 25.5 with a 10 % charge gives charge 100, net 900 and 35.29 units |
| Vending.FindMeter | pages/TokenVending.tsx:65 | a meter is found exactly when some meter has that number; the one found is the first in the list with it |
| Vending.FindMeterUnique | pages/TokenVending.tsx:65 | when numbers are distinct, looking up a listed meter's number finds that meter |
| Vending.Validate | pages/TokenVending.tsx:60-83 | a number whose `length` is not 11 is a format error before anything else; an accepted vend names an existing Active meter and has a positive amount and net amount |
| Vending.ValidateAccepts | pages/TokenVending.tsx:60-83 | a vend passes exactly when the number's `length` is 11, a meter with it exists and is Active, the amount is positive and the net amount is positive |
| Vending.ValidateFirstFailure | pages/TokenVending.tsx:60-83 | each of the five errors is reported exactly when every earlier check passed and its own check fails |
| Vending.FlatChargeEqualToAmountRejected | pages/TokenVending.tsx:74-81 | a flat charge equal to a positive amount on an active meter is rejected for a non-positive net amount |
| Vending.LengthCheckSuffices | pages/TokenVending.tsx:61-64 | on the digits-only field the length check passes exactly when the number is a valid 11-digit meter number |
| Vending.ValidatedVendHasActiveMeter | pages/TokenVending.tsx:60-83 | an accepted vend has a valid meter number, an active registered meter, and positive amount and net amount |
| Vending.CodeGroup | pages/TokenVending.tsx:57 | each random draw in [0, 1) gives a group from 1000 to 9999 |
| Vending.FormatCode | pages/TokenVending.tsx:57 | a code holds only digits and spaces and starts with its first group's digits |
| Vending.CodeLayout | pages/TokenVending.tsx:57 | a code is 19 characters: four groups of four digits separated by single spaces |
| Vending.CodeRoundTrip | pages/TokenVending.tsx:57 | parsing a formatted code gives back its four groups |
| Vending.GenerateRandomToken | pages/TokenVending.tsx:56-58 | the code has length 19 with spaces at positions 4, 9 and 14, and parses back to the four groups drawn, each from 1000 to 9999 |
| Vending.MintTokens | pages/TokenVending.tsx:100-117 | one token per requested token, none for a non-positive count; each carries the meter, the form's figures, the breakdown, the vending user and its own id, code and time; all tokens of a batch agree on everything but id, code and time |
| Vending.UserTokens | pages/TokenVending.tsx:131 | an in-order sub-list of the tokens, all the user's, with every token of the user kept as many times as it is listed |
| Vending.UserLast5 | pages/TokenVending.tsx:129-133 | the first min(5, number of the user's tokens) of the user's tokens, in list order |
| Vending.VendingPage.constructor | pages/TokenVending.tsx:11-33 | the saved meters and tokens, the default form (1 token, amount 0, tariff 25.5, flat charge 150), no error, no result, not confirming, not loading |
| Vending.VendingPage.SetMeterNumber | pages/TokenVending.tsx:176 | the form's meter number becomes the typed text stripped of non-digits; nothing else changes |
| Vending.VendingPage.SetNumberOfTokens | pages/TokenVending.tsx:188 | only the form's token count changes, to the parsed count |
| Vending.VendingPage.SetAmount | pages/TokenVending.tsx:202 | only the form's amount changes, to the parsed amount |
| Vending.VendingPage.SetTariffRate | pages/TokenVending.tsx:214 | only the form's tariff rate changes, to the parsed rate |
| Vending.VendingPage.SetServiceChargeType | pages/TokenVending.tsx:222 | only the form's charge type changes, to the chosen one |
| Vending.VendingPage.SetServiceCharge | pages/TokenVending.tsx:235 | only the form's service charge changes, to the parsed charge |
| Vending.VendingPage.InitiateVend | pages/TokenVending.tsx:85-91 | a valid form clears the error and opens the confirmation; an invalid one shows the first failing check's message; on the digits-only field the format error comes exactly when the number is not a valid 11-digit meter number |
| Vending.VendingPage.FinalVend | pages/TokenVending.tsx:93-127 | called only while the confirmation is open; the minted batch is shown and put in front of the stored tokens; each token is minted from the form and the found meter; the amount resets to 0; confirmation and loading end |
| Vending.VendingPage.CancelConfirm | pages/TokenVending.tsx:361 | the confirmation closes and nothing else changes; nothing is vended |
| Vending.VendingPage.DismissResult | pages/TokenVending.tsx:301 | the result panel is cleared and nothing else changes |
| Vending.Last5AfterVend | pages/TokenVending.tsx:119-133 | after a vend the user's panel starts with the new tokens, in batch order |
| Csv.Escape | pages/Reports.tsx:38-41 | an escaped field starts and ends with a double quote and is two characters plus one per embedded quote longer than the value |
| Csv.EscapeRoundTrip | pages/Reports.tsx:38-41 | reading an escaped field as a quoted RFC 4180 field gives back the value |
| Csv.FieldRoundTrip | pages/Reports.tsx:38-54 | an escaped field, or a bare one without quote, comma or line feed, reads back as its value followed by the rest of the text |
| Csv.RecordRoundTrip | pages/Reports.tsx:54 | a comma-joined line of encoded fields reads back as the record of its values |
| Csv.DocumentRoundTrip | pages/Reports.tsx:53-54 | lines joined by line feeds read back as all records' values, in order |
| Reports.FilteredData | pages/Reports.tsx:17-25 | the report rows are an in-order sub-list of the tokens; each is in the range; every token in the range is kept as many times as it is listed |
| Reports.OpenRangeKeepsAll | pages/Reports.tsx:19 | with either bound empty, every token is reported in order |
| Reports.ClosedRangeMembership | pages/Reports.tsx:20-23 | with both bounds set, a token is reported exactly when start ≤ its time ≤ end |
| Reports.Stats | pages/Reports.tsx:27-32 | no rows give three zero totals |
| Reports.StatsPartition | pages/Reports.tsx:27-32 | the totals of the tokens inside the range plus those outside it equal the totals of all tokens |
| Reports.StatsBounded | pages/Reports.tsx:17-32 | with non-negative columns, each reported total lies between zero and the unfiltered total |
| Reports.RowTexts | pages/Reports.tsx:43-51 | a row has the seven header columns, each field the escaped value of its column |
| Reports.Table | pages/Reports.tsx:43-54 | the header line first, then one row per reported token, in order |
| Reports.CsvBody | pages/Reports.tsx:35-54 | the export starts with the header names joined by commas, unescaped, and is only that line when no token is reported |
| Reports.HeadersAreBare | pages/Reports.tsx:35 | no header contains a quote, comma or line feed, so the unescaped header line reads back intact |
| Reports.CsvReadsBack | pages/Reports.tsx:34-54 | reading the export (RFC 4180 fields, line-feed record breaks) gives the headers, then the seven column values of each reported token |
| Dashboard.ActiveTenants | pages/Dashboard.tsx:24 | the active count never exceeds the number of meters |
| Dashboard.TotalRevenue | pages/Dashboard.tsx:21 | the sum of the amounts: zero for no tokens, never negative when no amount is |
| Dashboard.TotalCharges | pages/Dashboard.tsx:35 | the sum of the service charges: zero for no tokens, never negative when no charge is |
| Dashboard.Stats | pages/Dashboard.tsx:20-52 | every role sees four cards |
| Dashboard.AdminView | pages/Dashboard.tsx:27-33 | revenue over all tokens, meter count, token count and active meters, the last no more than the meter count |
| Dashboard.AccountantView | pages/Dashboard.tsx:34-41 | revenue, charges, revenue minus charges, and revenue over 12; for well-formed tokens the third card is the sum of net amounts |
| Dashboard.NetIsAmountMinusCharges | pages/Dashboard.tsx:39 | over tokens whose net is amount minus charge, the net total is revenue minus charges |
| Dashboard.OfficerView | pages/Dashboard.tsx:42-51 | the user's vend count (at most all tokens), the user's revenue (between 0 and total revenue), meter count, and 0 alerts |
| Dashboard.RecentVends | pages/Dashboard.tsx:54 | the first min(5, n) tokens, a prefix of the list |
| Dashboard.RecentAfterVend | pages/Dashboard.tsx:54 | right after a vend the recent list starts with the new tokens |
| SignUp.CheckPasswords | pages/SignUp.tsx:26-36 | accepted exactly when both passwords agree and the password's `length` (UTF-16 code units) is at least 6; a mismatch is reported before the length |
| SignUp.EmojiPasswordAccepted | pages/SignUp.tsx:32 | a password of three characters beyond U+FFFF passes the length guard |
| SignUp.NewUser | pages/SignUp.tsx:40-46 | the account takes name, email and role from the form and the given id and time |
| SignUp.Submit | pages/SignUp.tsx:21-48 | an account is created exactly when the passwords agree and their `length` is at least 6, with the form's name, email and role and the new-user session token |
| SignUp.AnyRolePasses | pages/SignUp.tsx:16-44 | the chosen role never affects acceptance and is the role the account gets |
| SignUp.SignUpPage.constructor | pages/SignUp.tsx:11-19 | an empty form with role Officer, no error, not loading |
| SignUp.SignUpPage.SetForm | pages/SignUp.tsx:11-17 | only the form changes |
| SignUp.SignUpPage.HandleSubmit | pages/SignUp.tsx:21-48 | a rejection shows its message and stops loading; an acceptance hands over the new account and token and stays loading |
| Login.Authenticate | pages/Login.tsx:22-41 | a login succeeds exactly for the two demonstration emails with the shared password, keeps the email, never yields an Accountant |
| Login.AdminLogin | pages/Login.tsx:22-29 | the administrator account and its session token |
| Login.OfficerLogin | pages/Login.tsx:30-37 | the officer account and its session token |
| Login.LoginPage.constructor | pages/Login.tsx:10-13 | empty credentials, no error, not loading |
| Login.LoginPage.SetCredentials | pages/Login.tsx:10-11 | only email and password change |
| Login.LoginPage.HandleSubmit | pages/Login.tsx:15-43 | a match hands the account to the session and stays loading; anything else shows the hint and stops loading |
| Sidebar.VisibleAmong | components/Sidebar.tsx:54-55 | the shown items are an in-order sub-list; each is visible to the role; every visible item is shown as many times as it is listed |
| Sidebar.VisibleMember | components/Sidebar.tsx:55 | a listed item is shown exactly when the role may see it |
| Sidebar.UnrestrictedAlwaysShown | components/Sidebar.tsx:55 | items without a role list are shown to every role |
| Sidebar.UsersItemIffAdmin | components/Sidebar.tsx:25-27 | Staff Management is shown exactly to administrators |
| Sidebar.OnlyUsersRestricted | components/Sidebar.tsx:12-31 | every item except Staff Management is visible to every role |
| Sidebar.ItemsPerRole | components/Sidebar.tsx:12-55 | an administrator sees all six items; every other role sees the five others, in table order |
| Sidebar.ButtonsFor | components/Sidebar.tsx:54-72 | one button per shown item with its id and label, highlighted exactly when its id is the active page |
| Sidebar.NavIdsDistinct | components/Sidebar.tsx:12-31 | the table's ids are pairwise distinct |
| Sidebar.VisibleIdsDistinct | components/Sidebar.tsx:54-57 | the shown items' ids are pairwise distinct for every role |
| Sidebar.AtMostOneActive | components/Sidebar.tsx:57 | no two buttons are highlighted at once |
| App.RenderPage | App.tsx:48-58 | each of the six page ids selects its page; any other value falls back to the dashboard |
| App.Screen | App.tsx:44-46 | the login page is shown exactly when nobody is authenticated |
| App.SidebarRole | App.tsx:65 | the sidebar filters by the user's role, or by Officer when there is no user |
| App.App.constructor | App.tsx:16-21 | the saved session or else logged out, starting on the dashboard; logged out satisfies the invariant |
| App.App.HandleLogin | App.tsx:28-31 | the session becomes authenticated with the user and token; the page is kept |
| App.App.HandleLogout | App.tsx:33-37 | the session is cleared and the page goes back to the dashboard |
| App.App.Navigate | App.tsx:64 | the page becomes the clicked id and the session is kept |
| App.LoginShowsPage | App.tsx:44-58 | after a successful login the screen is the selected page for that user, never the login page, and the sidebar role is not Accountant |
| App.ClickHighlights | components/Sidebar.tsx:57-61 | clicking a button highlights that button and no other |

## Left out

- Browser storage (`localStorage`) is left out. A page receives the saved list or session as a constructor parameter, and writes back are not modelled.
- Timers (`setTimeout`) are left out. Each delayed effect happens at once in the method that schedules it, and the loading flag is kept as the source leaves it.
- `crypto.randomUUID`, `Math.random` and `new Date()` become parameters: a fresh id, a token's draws and a timestamp.
- The browser's guarantee that UUIDs are unique is assumed in two places only: `MeterRegistry.Save` keeps its invariant when the new id is unused, and `MeterRegistry.constructor` keeps it when the two seed ids differ.
- Vending.Round2: models `parseFloat(x.toFixed(2))` on exact reals, as round-half-away-from-zero. It does not model binary floating point, under which some halfway cases round the other way.
- Vending.Calculate: infinite amounts, tariffs or charges are not modelled (a field such as `1e400`, which `parseFloat` reads as Infinity). An empty or non-numeric field never reaches the calculation as NaN: its handler replaces NaN with 0.
- The vending form's numeric change handlers are left out: `parseFloat(...) \|\| 0` for the amount, the tariff rate and the service charge, and `parseInt(...) \|\| 1` for the token count. The form holds the numbers they produce directly; parsing text into numbers is not modelled.
- The browser's `maxLength={11}` on the meter-number input is not modelled. Over-long input reaches the validation's length check instead.
- The browser's form validation is not modelled. The browser refuses to submit a form, so the submit handler never runs, while a field breaks its constraints:
  - `required`: the vending meter number and amount (pages/TokenVending.tsx:173, 198), the four text fields of the meter modal (pages/MeterManagement.tsx:253-290), every sign-up field (pages/SignUp.tsx:85-121) and both login fields (pages/Login.tsx:80, 95);
  - `type="email"` on the sign-up and login email fields (pages/SignUp.tsx:92, pages/Login.tsx:75);
  - `min={1} max={10}` on the token count (pages/TokenVending.tsx:185-186), `min={0}` on the amount (:199) and `step="0.01"` on the tariff rate (:212).
- Vending.VendingPage.InitiateVend, Meters.MeterRegistry.Save, SignUp.SignUpPage.HandleSubmit and Login.LoginPage.HandleSubmit: modelled on every input, including inputs the browser would refuse. For example, the model mints 15 tokens for a count of 15, none for a count of -3, and saves a meter with an empty tenant name.
- Vending.MintTokens: the count is `parseInt`'s integer, with 1 in place of NaN and of 0. The model accepts any integer, which covers those values. A digit string so long that `parseInt` returns Infinity is not modelled.
- Meters.MatchesSearch: `toLowerCase` is modelled for ASCII letters only.
- Reports.FilteredData: dates are integer timestamps and range bounds are optional timestamps, with an empty field as no bound. Parsing date strings, and NaN from an unparsable one, are not modelled.
- Reports.CsvBody: `toFixed(2)` and `toLocaleDateString` enter as the parameters `money` and `date`. Their output is any string.
- The `data:` URI prefix, `encodeURI`, the download link and the file name are not part of this model.
- Dashboard.Stats: card values are kept as numbers. The `$` prefix, `toLocaleString` and the whole-dollar `toFixed(0)` of Monthly Avg are not modelled, and neither is the `|| 0` guard, which only matters for NaN.
- JSX rendering, styling, icons and toast messages are left out.
- `Header`, `Toast`, `UserManagement` and `ArchitectureDocs` are not part of this model. Only their place in the page switch is modelled.
- The application shell never renders the sign-up page. `SignUp` is modelled on its own.
- App.Screen: requires an authenticated session to carry a user. The source dereferences `auth.user!` and would fail on a saved session that breaks this.

=== FILE: app.dfy ===
/**
 * The application shell (App.tsx): the session state, the current page,
 * the login / logout transitions, the guard that shows the login page to
 * anonymous visitors, and the page switch.
 */
module App {
  import opened Wrappers
  import opened Types
  import Sidebar
  import Login

  /** What the main area shows. */
  datatype View =
    | LoginView
    | DashboardView(user: User)
    | MetersView(user: User)
    | VendingView(user: User)
    | ReportsView(user: User)
    | UsersView(user: User)
    | DocsView

  const LoggedOut := AuthState(None, None, false)

  /** `renderPage`: the six page ids, anything else falls back to the dashboard. */
  function RenderPage(page: string, user: User): (v: View)
    ensures page == "dashboard" ==> v == DashboardView(user)
    ensures page == "meters" ==> v == MetersView(user)
    ensures page == "vending" ==> v == VendingView(user)
    ensures page == "reports" ==> v == ReportsView(user)
    ensures page == "users" ==> v == UsersView(user)
    ensures page == "docs" ==> v == DocsView
    ensures page !in {"dashboard", "meters", "vending", "reports", "users", "docs"} ==> v == DashboardView(user)
  {
    if page == "dashboard" then DashboardView(user)
    else if page == "meters" then MetersView(user)
    else if page == "vending" then VendingView(user)
    else if page == "reports" then ReportsView(user)
    else if page == "users" then UsersView(user)
    else if page == "docs" then DocsView
    else DashboardView(user)
  }

  /** The whole screen: the login page whenever nobody is authenticated, else the current page. */
  function Screen(auth: AuthState, page: string): (v: View)
    requires auth.isAuthenticated ==> auth.user.Some?
    ensures !auth.isAuthenticated <==> v == LoginView
  {
    if !auth.isAuthenticated then LoginView else RenderPage(page, auth.user.value)
  }

  /** `auth.user?.role || UserRole.OFFICER`: the role the sidebar filters by. */
  function SidebarRole(auth: AuthState): (role: UserRole)
    ensures auth.user.None? ==> role == Officer
    ensures auth.user.Some? ==> role == auth.user.value.role
  {
    if auth.user.Some? then auth.user.value.role else Officer
  }

  class App {
    var auth: AuthState
    var currentPage: string

    /** Being authenticated and having a user go together. */
    ghost predicate Valid()
      reads this
    {
      auth.isAuthenticated <==> auth.user.Some?
    }

    /** The saved session if there is one, else logged out; the dashboard is the first page. */
    constructor(saved: Option<AuthState>)
      ensures auth == (if saved.Some? then saved.value else LoggedOut)
      ensures currentPage == "dashboard"
      ensures saved.None? ==> Valid()
    {
      auth := if saved.Some? then saved.value else LoggedOut;
      currentPage := "dashboard";
    }

    /** `handleLogin`. */
    method HandleLogin(user: User, token: string)
      modifies this
      ensures auth == AuthState(Some(user), Some(token), true)
      ensures currentPage == old(currentPage)
      ensures Valid()
    {
      auth := AuthState(Some(user), Some(token), true);
    }

    /** `handleLogout`: the session is cleared and the next login starts on the dashboard. */
    method HandleLogout()
      modifies this
      ensures auth == LoggedOut && currentPage == "dashboard"
      ensures Valid()
    {
      auth := LoggedOut;
      currentPage := "dashboard";
    }

    /** The sidebar's `onNavigate`. */
    method Navigate(page: string)
      modifies this
      ensures currentPage == page && auth == old(auth)
      ensures old(Valid()) ==> Valid()
    {
      currentPage := page;
    }

    function CurrentView(): View
      reads this
      requires Valid()
    {
      Screen(auth, currentPage)
    }

    /** The sidebar as rendered for the current session and page. */
    function SidebarButtons(): seq<Sidebar.NavButton>
      reads this
    {
      Sidebar.Buttons(currentPage, SidebarRole(auth))
    }
  }

  /** A successful login followed by the session handler yields an authenticated screen for that user. */
  lemma LoginShowsPage(email: string, password: string, now: int, page: string)
    requires Login.Authenticate(email, password, now).Some?
    ensures var r := Login.Authenticate(email, password, now).value;
      var session := AuthState(Some(r.0), Some(r.1), true);
      Screen(session, page) == RenderPage(page, r.0) && Screen(session, page) != LoginView
      && SidebarRole(session) != Accountant
  {
  }

  /** Clicking a sidebar button makes that button, and only that one, the highlighted one. */
  lemma ClickHighlights(auth: AuthState, page: string, i: nat)
    requires i < |Sidebar.Buttons(page, SidebarRole(auth))|
    ensures var b := Sidebar.Buttons(page, SidebarRole(auth))[i];
      var after := Sidebar.Buttons(Sidebar.ClickTarget(b), SidebarRole(auth));
      i < |after| && after[i].isActive
      && forall j :: 0 <= j < |after| && j != i ==> !after[j].isActive
  {
    var b := Sidebar.Buttons(page, SidebarRole(auth))[i];
    var after := Sidebar.Buttons(Sidebar.ClickTarget(b), SidebarRole(auth));
    forall j | 0 <= j < |after| && j != i ensures !after[j].isActive {
      if j < i {
        Sidebar.AtMostOneActive(b.id, SidebarRole(auth), j, i);
      } else {
        Sidebar.AtMostOneActive(b.id, SidebarRole(auth), i, j);
      }
    }
  }
}

=== FILE: csv.dfy ===
/**
 * CSV text as the report export writes it, and a reader that recovers the
 * fields from it: fields are read as section 2 of RFC 4180 defines them,
 * but records end at a bare line feed rather than CRLF, as the export writes them.
 *
 * Writing: a field is escaped by doubling each embedded double quote and
 * enclosing the result in double quotes (rule 7); fields are joined by
 * commas and records by line feeds.
 *
 * Reading: a field is either enclosed in double quotes, where a pair of
 * double quotes stands for one, or bare (no double quote, comma or line
 * feed); after a field comes a comma, a line feed or the end of the text.
 */
module Csv {
  import opened Wrappers
  import opened Text

  function QuoteCount(s: string): nat
  {
    if s == [] then 0 else (if s[0] == '"' then 1 else 0) + QuoteCount(s[1..])
  }

  /** `s.replace(/"/g, '""')`. */
  function DoubleQuotes(s: string): (r: string)
    ensures |r| == |s| + QuoteCount(s)
  {
    if s == [] then []
    else if s[0] == '"' then ['"', '"'] + DoubleQuotes(s[1..])
    else [s[0]] + DoubleQuotes(s[1..])
  }

  /** `escape`: the field enclosed in double quotes with its quotes doubled. */
  function Escape(s: string): (r: string)
    ensures |r| == |s| + QuoteCount(s) + 2
    ensures r[0] == '"' && r[|r| - 1] == '"'
  {
    ['"'] + DoubleQuotes(s) + ['"']
  }

  // ---------------------------------------------------------------------------
  // Reading

  /**
   * The inside of an enclosed field, starting just after its opening quote:
   * the field's value and the text after its closing quote.
   */
  function ParseQuotedBody(s: string): (r: Option<(string, string)>)
    ensures r.Some? ==> |r.value.1| < |s|
  {
    if s == [] then None
    else if s[0] == '"' then
      if |s| >= 2 && s[1] == '"' then
        match ParseQuotedBody(s[2..])
        case None => None
        case Some((v, rest)) => Some((['"'] + v, rest))
      else Some(([], s[1..]))
    else
      match ParseQuotedBody(s[1..])
      case None => None
      case Some((v, rest)) => Some(([s[0]] + v, rest))
  }

  /** A bare field: everything up to the next comma, line feed or the end; a double quote is an error. */
  function ParseBare(s: string): (r: Option<(string, string)>)
    ensures r.Some? ==> |r.value.1| <= |s|
  {
    if s == [] || s[0] == ',' || s[0] == '\n' then Some(([], s))
    else if s[0] == '"' then None
    else
      match ParseBare(s[1..])
      case None => None
      case Some((v, rest)) => Some(([s[0]] + v, rest))
  }

  function ParseField(s: string): (r: Option<(string, string)>)
    ensures r.Some? ==> |r.value.1| <= |s|
  {
    if s != [] && s[0] == '"' then ParseQuotedBody(s[1..]) else ParseBare(s)
  }

  /** A whole text: one or more records, each of one or more fields. */
  function ParseRecords(s: string): (r: Option<seq<seq<string>>>)
    ensures r.Some? ==> |r.value| >= 1 && forall i :: 0 <= i < |r.value| ==> |r.value[i]| >= 1
    decreases |s|
  {
    match ParseField(s)
    case None => None
    case Some((v, rest)) =>
      if rest == [] then Some([[v]])
      else if rest[0] == ',' then
        match ParseRecords(rest[1..])
        case None => None
        case Some(recs) => Some([[v] + recs[0]] + recs[1..])
      else if rest[0] == '\n' then
        match ParseRecords(rest[1..])
        case None => None
        case Some(recs) => Some([[v]] + recs)
      else None
  }

  /** Rule 7 read backwards: an escaped field gives back exactly its value. */
  function Unescape(field: string): Option<string>
  {
    if field != [] && field[0] == '"' then
      match ParseQuotedBody(field[1..])
      case Some((v, rest)) => if rest == [] then Some(v) else None
      case None => None
    else None
  }

  // ---------------------------------------------------------------------------
  // Round trips

  lemma {:induction false} QuotedBodyRoundTrip(v: string, tail: string)
    requires tail == [] || tail[0] != '"'
    ensures ParseQuotedBody(DoubleQuotes(v) + ['"'] + tail) == Some((v, tail))
  {
    var s := DoubleQuotes(v) + ['"'] + tail;
    if v == [] {
      assert s == ['"'] + tail;
      assert s[1..] == tail;
    } else if v[0] == '"' {
      QuotedBodyRoundTrip(v[1..], tail);
      assert s == ['"', '"'] + (DoubleQuotes(v[1..]) + ['"'] + tail);
      assert s[2..] == DoubleQuotes(v[1..]) + ['"'] + tail;
      assert ['"'] + v[1..] == v;
    } else {
      QuotedBodyRoundTrip(v[1..], tail);
      assert s == [v[0]] + (DoubleQuotes(v[1..]) + ['"'] + tail);
      assert s[1..] == DoubleQuotes(v[1..]) + ['"'] + tail;
      assert [v[0]] + v[1..] == v;
    }
  }

  /** Decoding an escaped field as a quoted RFC 4180 field gives back the original text. */
  lemma EscapeRoundTrip(s: string)
    ensures Unescape(Escape(s)) == Some(s)
  {
    QuotedBodyRoundTrip(s, []);
    assert Escape(s)[1..] == DoubleQuotes(s) + ['"'] + [];
  }

  /** Text that can stand as a field without enclosing quotes. */
  predicate Bare(v: string)
  {
    forall i :: 0 <= i < |v| ==> v[i] != '"' && v[i] != ',' && v[i] != '\n'
  }

  lemma {:induction false} BareRoundTrip(v: string, tail: string)
    requires Bare(v)
    requires tail == [] || tail[0] == ',' || tail[0] == '\n'
    ensures ParseBare(v + tail) == Some((v, tail))
  {
    if v == [] {
      assert v + tail == tail;
    } else {
      assert Bare(v[1..]) by {
        forall i | 0 <= i < |v[1..]| ensures v[1..][i] == v[i + 1] { }
      }
      BareRoundTrip(v[1..], tail);
      assert (v + tail)[1..] == v[1..] + tail;
      assert [v[0]] + v[1..] == v;
    }
  }

  /** `text` is how the value `v` appears in the output: escaped, or bare. */
  predicate Encodes(text: string, v: string)
  {
    text == Escape(v) || (text == v && Bare(v))
  }

  lemma FieldRoundTrip(text: string, v: string, tail: string)
    requires Encodes(text, v)
    requires tail == [] || tail[0] == ',' || tail[0] == '\n'
    ensures ParseField(text + tail) == Some((v, tail))
  {
    if text == Escape(v) {
      QuotedBodyRoundTrip(v, tail);
      assert (text + tail)[1..] == DoubleQuotes(v) + ['"'] + tail;
    } else {
      BareRoundTrip(v, tail);
    }
  }

  /** What the parser yields for a record followed by `tail`. */
  function ThenRecords(values: seq<string>, tail: string): Option<seq<seq<string>>>
  {
    if tail == [] then Some([values])
    else match ParseRecords(tail[1..])
      case None => None
      case Some(recs) => Some([values] + recs)
  }

  lemma {:induction false} RecordRoundTrip(texts: seq<string>, values: seq<string>, tail: string)
    requires |texts| == |values| >= 1
    requires forall k :: 0 <= k < |texts| ==> Encodes(texts[k], values[k])
    requires tail == [] || tail[0] == '\n'
    ensures ParseRecords(Join(texts, ",") + tail) == ThenRecords(values, tail)
  {
    if |texts| == 1 {
      FieldRoundTrip(texts[0], values[0], tail);
      assert [values[0]] == values;
    } else {
      var more := Join(texts[1..], ",") + tail;
      assert Join(texts, ",") + tail == texts[0] + ([','] + more);
      FieldRoundTrip(texts[0], values[0], [','] + more);
      assert ([','] + more)[1..] == more;
      RecordRoundTrip(texts[1..], values[1..], tail);
      assert [values[0]] + values[1..] == values;
      assert ParseRecords(Join(texts, ",") + tail) ==
        match ParseRecords(more)
        case None => None
        case Some(recs) => Some([[values[0]] + recs[0]] + recs[1..]);
      if tail == [] {
        assert ParseRecords(more) == Some([values[1..]]);
        assert [values[1..]][0] == values[1..] && [values[1..]][1..] == [];
        assert [[values[0]] + values[1..]] == [values];
        assert ParseRecords(Join(texts, ",") + tail) == Some([[values[0]] + values[1..]] + []);
        assert ThenRecords(values, tail) == Some([values]);
        assert [[values[0]] + values[1..]] + [] == [values];
      } else if ParseRecords(tail[1..]).None? {
        assert ParseRecords(more) == None;
      } else {
        var recs := ParseRecords(tail[1..]).value;
        assert ParseRecords(more) == Some([values[1..]] + recs);
        assert ([values[1..]] + recs)[0] == values[1..];
        assert ([values[1..]] + recs)[1..] == recs;
        assert ThenRecords(values, tail) == Some([values] + recs);
      }
    }
  }

  /** The text of a table: fields joined by commas, records by line feeds. */
  function Lines(rows: seq<seq<string>>): (r: seq<string>)
    ensures |r| == |rows|
  {
    seq(|rows|, i requires 0 <= i < |rows| => Join(rows[i], ","))
  }

  function Document(rows: seq<seq<string>>): string
  {
    Join(Lines(rows), "\n")
  }

  /** Reading back a written table gives the values of every record, in order. */
  lemma {:induction false} DocumentRoundTrip(rows: seq<seq<string>>, values: seq<seq<string>>)
    requires |rows| == |values| >= 1
    requires forall i :: 0 <= i < |rows| ==> |rows[i]| == |values[i]| >= 1
    requires forall i, k :: 0 <= i < |rows| && 0 <= k < |rows[i]| ==> Encodes(rows[i][k], values[i][k])
    ensures ParseRecords(Document(rows)) == Some(values)
  {
    if |rows| == 1 {
      RecordRoundTrip(rows[0], values[0], []);
      assert Document(rows) == Join(rows[0], ",") + [];
      assert [values[0]] == values;
    } else {
      var rest := Document(rows[1..]);
      assert Lines(rows)[1..] == Lines(rows[1..]);
      assert Document(rows) == Join(rows[0], ",") + (['\n'] + rest);
      RecordRoundTrip(rows[0], values[0], ['\n'] + rest);
      assert (['\n'] + rest)[1..] == rest;
      DocumentRoundTrip(rows[1..], values[1..]);
      assert [values[0]] + values[1..] == values;
    }
  }
}

=== FILE: dashboard.dfy ===
/**
 * The dashboard (pages/Dashboard.tsx): four role-dependent statistics over
 * the saved meter and token lists, and the five most recent vends.
 * Display formatting (`toLocaleString`, `toFixed`) is not modelled; the
 * statistics carry the numbers they display.
 */
module Dashboard {
  import opened Seqs
  import opened Types
  import Vending

  datatype StatValue = Money(amount: real) | Count(n: nat)

  /** `label` is a Dafny keyword, so the label is `caption` here. */
  datatype Stat = Stat(caption: string, value: StatValue, sub: string, kind: string)

  /** `tokens.reduce((acc, t) => acc + t.amount, 0)`. */
  function TotalRevenue(tokens: seq<Token>): (r: real)
    ensures tokens == [] ==> r == 0.0
    ensures (forall i :: 0 <= i < |tokens| ==> tokens[i].amount >= 0.0) ==> r >= 0.0
  {
    assert (forall i :: 0 <= i < |tokens| ==> tokens[i].amount >= 0.0) ==> Sum(AmountOf, tokens) >= 0.0 by {
      if forall i :: 0 <= i < |tokens| ==> tokens[i].amount >= 0.0 {
        SumNonNegative(AmountOf, tokens);
      }
    }
    Sum(AmountOf, tokens)
  }

  /** `tokens.reduce((acc, t) => acc + t.totalServiceCharge, 0)`. */
  function TotalCharges(tokens: seq<Token>): (r: real)
    ensures tokens == [] ==> r == 0.0
    ensures (forall i :: 0 <= i < |tokens| ==> tokens[i].totalServiceCharge >= 0.0) ==> r >= 0.0
  {
    assert (forall i :: 0 <= i < |tokens| ==> tokens[i].totalServiceCharge >= 0.0) ==> Sum(ChargeOf, tokens) >= 0.0 by {
      if forall i :: 0 <= i < |tokens| ==> tokens[i].totalServiceCharge >= 0.0 {
        SumNonNegative(ChargeOf, tokens);
      }
    }
    Sum(ChargeOf, tokens)
  }

  /** Meters whose status is Active. */
  function ActiveTenants(meters: seq<Meter>): (n: nat)
    ensures n <= |meters|
  {
    |Filter((m: Meter) => m.status == Active, meters)|
  }

  /** `stats`: four entries whose content depends on the role. */
  function Stats(user: User, meters: seq<Meter>, tokens: seq<Token>): (r: seq<Stat>)
    ensures |r| == 4
  {
    match user.role
    case Admin => AdminStats(meters, tokens)
    case Accountant => AccountantStats(tokens)
    case Officer => OfficerStats(user.id, meters, tokens)
  }

  function AdminStats(meters: seq<Meter>, tokens: seq<Token>): (r: seq<Stat>)
    ensures |r| == 4
  {
    [
      Stat("Total Revenue", Money(TotalRevenue(tokens)), "System-wide earnings", "revenue"),
      Stat("Total Meters", Count(|meters|), "Registered devices", "meters"),
      Stat("Tokens Vended", Count(|tokens|), "Lifetime count", "tokens"),
      Stat("Active Tenants", Count(ActiveTenants(meters)), "Currently using power", "tenants")]
  }

  function AccountantStats(tokens: seq<Token>): (r: seq<Stat>)
    ensures |r| == 4
  {
    var totalRevenue := TotalRevenue(tokens);
    var serviceCharges := TotalCharges(tokens);
    [
      Stat("Total Revenue", Money(totalRevenue), "Gross amount", "revenue"),
      Stat("Service Earnings", Money(serviceCharges), "Commission/Charges", "charges"),
      Stat("Net Distribution", Money(totalRevenue - serviceCharges), "Payable to property", "net"),
      Stat("Monthly Avg", Money(totalRevenue / 12.0), "Projected monthly", "avg")]
  }

  function OfficerStats(userId: string, meters: seq<Meter>, tokens: seq<Token>): (r: seq<Stat>)
    ensures |r| == 4
  {
    var userTokens := Vending.UserTokens(tokens, userId);
    [
      Stat("Your Vends", Count(|userTokens|), "Tokens vended by you", "tokens"),
      Stat("Your Revenue", Money(Sum(AmountOf, userTokens)), "Collected by you", "revenue"),
      Stat("Registered Meters", Count(|meters|), "Total in system", "meters"),
      Stat("Active Alerts", Count(0), "Meters needing review", "alerts")]
  }

  /** An administrator sees system-wide revenue, the meter and token counts, and the active meters. */
  lemma AdminView(user: User, meters: seq<Meter>, tokens: seq<Token>)
    requires user.role == Admin
    ensures var r := Stats(user, meters, tokens);
      r[0].value == Money(TotalRevenue(tokens)) && r[1].value == Count(|meters|)
      && r[2].value == Count(|tokens|) && r[3].value == Count(ActiveTenants(meters))
      && r[3].value.n <= r[1].value.n
  {
  }

  predicate AllWellFormed(tokens: seq<Token>)
  {
    forall i :: 0 <= i < |tokens| ==> Vending.WellFormed(tokens[i])
  }

  lemma {:induction false} NetIsAmountMinusCharges(tokens: seq<Token>)
    requires AllWellFormed(tokens)
    ensures Sum(NetOf, tokens) == TotalRevenue(tokens) - TotalCharges(tokens)
  {
    if tokens != [] {
      NetIsAmountMinusCharges(tokens[1..]);
    }
  }

  /**
   * An accountant's net distribution is revenue minus service charges, which
   * for consistently minted tokens is the total of their net amounts.
   */
  lemma AccountantView(user: User, meters: seq<Meter>, tokens: seq<Token>)
    requires user.role == Accountant
    ensures var r := Stats(user, meters, tokens);
      r[0].value == Money(TotalRevenue(tokens)) && r[1].value == Money(TotalCharges(tokens))
      && r[2].value == Money(r[0].value.amount - r[1].value.amount)
    ensures AllWellFormed(tokens) ==> Stats(user, meters, tokens)[2].value == Money(Sum(NetOf, tokens))
  {
    assert Stats(user, meters, tokens) == AccountantStats(tokens);
    if AllWellFormed(tokens) {
      NetIsAmountMinusCharges(tokens);
    }
  }

  /** An officer's figures cover only their own tokens, so they never exceed the system-wide ones. */
  lemma OfficerView(user: User, meters: seq<Meter>, tokens: seq<Token>)
    requires user.role == Officer
    requires forall i :: 0 <= i < |tokens| ==> tokens[i].amount >= 0.0
    ensures var r := Stats(user, meters, tokens);
      r[0].value == Count(|Vending.UserTokens(tokens, user.id)|) && r[0].value.n <= |tokens|
      && r[1].value.Money? && 0.0 <= r[1].value.amount <= TotalRevenue(tokens)
      && r[2].value == Count(|meters|) && r[3].value == Count(0)
  {
    FilterSumBounded(AmountOf, ByUser(user.id), tokens);
  }

  /** `recentVends`: the first five tokens, or all of them when there are fewer. */
  function RecentVends(tokens: seq<Token>): (r: seq<Token>)
    ensures |r| == if |tokens| < 5 then |tokens| else 5
    ensures r <= tokens
  {
    if |tokens| < 5 then tokens else tokens[..5]
  }

  /** Right after a vend, the newest tokens lead the recent list. */
  lemma RecentAfterVend(newTokens: seq<Token>, older: seq<Token>, k: nat)
    requires k < |newTokens| && k < 5
    ensures k < |RecentVends(newTokens + older)| && RecentVends(newTokens + older)[k] == newTokens[k]
  {
  }
}

=== FILE: login.dfy ===
/** The login page (pages/Login.tsx): a fixed table of two demonstration accounts. */
module Login {
  import opened Wrappers
  import opened Types

  const AdminEmail := "admin@easyvend.com"
  const OfficerEmail := "officer@easyvend.com"
  const DemoPassword := "password"
  const AdminToken := "mock-jwt-token-admin"
  const OfficerToken := "mock-jwt-token-officer"
  const InvalidMessage := "Invalid credentials. Hint: use admin@easyvend.com / password"

  /** The credential check: the user and session token `onLogin` receives, or `None`. */
  function Authenticate(email: string, password: string, now: int): (r: Option<(User, string)>)
    ensures r.Some? <==> password == DemoPassword && (email == AdminEmail || email == OfficerEmail)
    ensures r.Some? ==> r.value.0.email == email && r.value.0.createdAt == now
    ensures r.Some? ==> r.value.0.role != Accountant
  {
    if email == AdminEmail && password == DemoPassword then
      Some((User("1", "Super Admin", email, Admin, now), AdminToken))
    else if email == OfficerEmail && password == DemoPassword then
      Some((User("2", "Jane Officer", email, Officer, now), OfficerToken))
    else None
  }

  /** The administrator account. */
  lemma AdminLogin(now: int)
    ensures Authenticate(AdminEmail, DemoPassword, now) ==
      Some((User("1", "Super Admin", AdminEmail, Admin, now), AdminToken))
  {
  }

  /** The officer account. */
  lemma OfficerLogin(now: int)
    ensures Authenticate(OfficerEmail, DemoPassword, now) ==
      Some((User("2", "Jane Officer", OfficerEmail, Officer, now), OfficerToken))
  {
  }

  class LoginPage {
    var email: string
    var password: string
    var error: string
    var loading: bool

    constructor()
      ensures email == "" && password == "" && error == "" && !loading
    {
      email := "";
      password := "";
      error := "";
      loading := false;
    }

    method SetCredentials(e: string, p: string)
      modifies this
      ensures email == e && password == p && error == old(error) && loading == old(loading)
    {
      email := e;
      password := p;
    }

    /**
     * `handleSubmit`: a match returns what `onLogin` receives and leaves
     * `loading` set; anything else shows the hint and clears `loading`.
     */
    method HandleSubmit(now: int) returns (loggedIn: Option<(User, string)>)
      modifies this
      ensures email == old(email) && password == old(password)
      ensures loggedIn == Authenticate(email, password, now)
      ensures loggedIn.Some? ==> error == "" && loading
      ensures loggedIn.None? ==> error == InvalidMessage && !loading
    {
      loading := true;
      error := "";
      if email == AdminEmail && password == DemoPassword {
        loggedIn := Some((User("1", "Super Admin", email, Admin, now), AdminToken));
      } else if email == OfficerEmail && password == DemoPassword {
        loggedIn := Some((User("2", "Jane Officer", email, Officer, now), OfficerToken));
      } else {
        error := InvalidMessage;
        loading := false;
        loggedIn := None;
      }
    }
  }
}

=== FILE: meter_management.dfy ===
/**
 * The meter registry page (pages/MeterManagement.tsx): an in-place edited
 * list of meters with an 11-digit number format, unique meter numbers,
 * add / edit / status toggle, and a search filter.
 */
module Meters {
  import opened Wrappers
  import opened Seqs
  import opened Text
  import opened Types

  /** The anchored pattern `^\d{n}$`, matched one character at a time. */
  predicate MatchesDigits(s: string, n: nat)
  {
    if s == [] then n == 0
    else n > 0 && IsDigit(s[0]) && MatchesDigits(s[1..], n - 1)
  }

  /** `validateMeterNumber`: the test of `/^\d{11}$/`. */
  predicate ValidMeterNumber(s: string)
  {
    MatchesDigits(s, 11)
  }

  lemma {:induction false} MatchesDigitsIff(s: string, n: nat)
    ensures MatchesDigits(s, n) <==> |s| == n && AllDigits(s)
  {
    if s != [] && n > 0 {
      MatchesDigitsIff(s[1..], n - 1);
      assert AllDigits(s) <==> IsDigit(s[0]) && AllDigits(s[1..]) by {
        if IsDigit(s[0]) && AllDigits(s[1..]) {
          forall i | 0 <= i < |s| ensures IsDigit(s[i]) {
            if i > 0 { assert s[i] == s[1..][i - 1]; }
          }
        }
      }
    }
  }

  /** A meter number is valid exactly when it has eleven characters, all of them digits. */
  lemma ValidMeterNumberIff(s: string)
    ensures ValidMeterNumber(s) <==> |s| == 11 && AllDigits(s)
  {
    MatchesDigitsIff(s, 11);
  }

  /** The five editable fields of the add / edit form. */
  datatype MeterForm = MeterForm(
    meterNumber: string,
    tenantName: string,
    property: string,
    unit: string,
    status: MeterStatus)

  const EmptyForm := MeterForm("", "", "", "", Active)

  const InvalidNumberMessage := "Meter number must be exactly 11 numeric digits."
  const DuplicateMessage := "A meter with this number already exists in the system."

  ghost predicate DistinctNumbers(ms: seq<Meter>)
  {
    forall i, j :: 0 <= i < j < |ms| ==> ms[i].meterNumber != ms[j].meterNumber
  }

  ghost predicate DistinctIds(ms: seq<Meter>)
  {
    forall i, j :: 0 <= i < j < |ms| ==> ms[i].id != ms[j].id
  }

  /** The duplicate check: another meter (any meter when adding) already has the number. */
  function IsDuplicate(ms: seq<Meter>, num: string, editingId: Option<string>): (b: bool)
    ensures !b <==> forall i :: 0 <= i < |ms| && ms[i].meterNumber == num ==> editingId == Some(ms[i].id)
  {
    exists i :: 0 <= i < |ms| && ms[i].meterNumber == num && (editingId.None? || ms[i].id != editingId.value)
  }

  /** `editingMeter?.id`. */
  function EditingId(editing: Option<Meter>): Option<string>
  {
    if editing.Some? then Some(editing.value.id) else None
  }

  /** The record built when adding: a fresh id, the form's fields and the creation time. */
  function NewMeter(id: string, f: MeterForm, now: int): (m: Meter)
    ensures m.id == id && m.createdAt == now
    ensures m.meterNumber == f.meterNumber && m.tenantName == f.tenantName && m.property == f.property
    ensures m.unit == f.unit && m.status == f.status
  {
    Meter(id, f.meterNumber, f.tenantName, f.property, f.unit, f.status, now)
  }

  /** The form's fields written over a meter; its id and creation time stay. */
  function Overwrite(m: Meter, f: MeterForm): (r: Meter)
    ensures r.id == m.id && r.createdAt == m.createdAt
    ensures r.meterNumber == f.meterNumber && r.tenantName == f.tenantName && r.property == f.property
    ensures r.unit == f.unit && r.status == f.status
  {
    m.(meterNumber := f.meterNumber, tenantName := f.tenantName, property := f.property,
       unit := f.unit, status := f.status)
  }

  /** The edit: every meter whose id matches takes the form's fields; the rest are untouched. */
  function ApplyEdit(ms: seq<Meter>, id: string, f: MeterForm): (r: seq<Meter>)
    ensures |r| == |ms|
    ensures forall i :: 0 <= i < |ms| && ms[i].id != id ==> r[i] == ms[i]
    ensures forall i :: 0 <= i < |ms| && ms[i].id == id ==> r[i] == Overwrite(ms[i], f)
  {
    seq(|ms|, i requires 0 <= i < |ms| => if ms[i].id == id then Overwrite(ms[i], f) else ms[i])
  }

  function Flip(s: MeterStatus): MeterStatus
  {
    if s == Active then Inactive else Active
  }

  /** `toggleStatus`: the meters whose id matches switch between Active and Inactive. */
  function Toggled(ms: seq<Meter>, id: string): (r: seq<Meter>)
    ensures |r| == |ms|
    ensures forall i :: 0 <= i < |ms| && ms[i].id != id ==> r[i] == ms[i]
    ensures forall i :: 0 <= i < |ms| && ms[i].id == id ==>
      r[i] == ms[i].(status := Flip(ms[i].status)) && r[i].status != ms[i].status
  {
    seq(|ms|, i requires 0 <= i < |ms| => if ms[i].id == id then ms[i].(status := Flip(ms[i].status)) else ms[i])
  }

  /** Toggling the same meter twice restores the list. */
  lemma ToggleInvolution(ms: seq<Meter>, id: string)
    ensures Toggled(Toggled(ms, id), id) == ms
  {
    var r := Toggled(Toggled(ms, id), id);
    assert |r| == |ms|;
    forall i | 0 <= i < |ms| ensures r[i] == ms[i] {
      if ms[i].id == id {
        assert Flip(Flip(ms[i].status)) == ms[i].status;
      }
    }
  }

  /** Toggling changes statuses only, so both uniqueness invariants survive it. */
  lemma ToggleKeepsDistinct(ms: seq<Meter>, id: string)
    requires DistinctNumbers(ms) && DistinctIds(ms)
    ensures DistinctNumbers(Toggled(ms, id)) && DistinctIds(Toggled(ms, id))
  {
    var r := Toggled(ms, id);
    forall i | 0 <= i < |r| ensures r[i].meterNumber == ms[i].meterNumber && r[i].id == ms[i].id {
    }
  }

  /** Adding a meter whose number passed the duplicate check and whose id is new keeps both lists unique. */
  lemma AddKeepsDistinct(ms: seq<Meter>, m: Meter)
    requires DistinctNumbers(ms) && DistinctIds(ms)
    requires !IsDuplicate(ms, m.meterNumber, None)
    requires forall i :: 0 <= i < |ms| ==> ms[i].id != m.id
    ensures DistinctNumbers([m] + ms) && DistinctIds([m] + ms)
  {
    var r := [m] + ms;
    forall i, j | 0 <= i < j < |r| ensures r[i].meterNumber != r[j].meterNumber && r[i].id != r[j].id {
      assert r[j] == ms[j - 1];
      if i > 0 {
        assert r[i] == ms[i - 1];
      }
    }
  }

  /**
   * Editing with a number that no other meter holds keeps the numbers unique:
   * ids are unique, so only the edited meter changes number.
   */
  lemma EditKeepsDistinct(ms: seq<Meter>, id: string, f: MeterForm)
    requires DistinctNumbers(ms) && DistinctIds(ms)
    requires !IsDuplicate(ms, f.meterNumber, Some(id))
    ensures DistinctNumbers(ApplyEdit(ms, id, f)) && DistinctIds(ApplyEdit(ms, id, f))
  {
    var r := ApplyEdit(ms, id, f);
    assert forall k :: 0 <= k < |ms| && ms[k].id != id ==> ms[k].meterNumber != f.meterNumber;
    forall i, j | 0 <= i < j < |r| ensures r[i].meterNumber != r[j].meterNumber && r[i].id != r[j].id {
      assert r[i].id == ms[i].id && r[j].id == ms[j].id;
    }
  }

  /** The search: the number contains the text, or the tenant or property contains it ignoring ASCII case. */
  function MatchesSearch(m: Meter, search: string): (b: bool)
    ensures b <==> exists i :: (OccursAt(m.meterNumber, search, i)
      || OccursAt(Lower(m.tenantName), Lower(search), i) || OccursAt(Lower(m.property), Lower(search), i))
    ensures search == "" ==> b
  {
    ContainsAt(m.meterNumber, search);
    ContainsAt(Lower(m.tenantName), Lower(search));
    ContainsAt(Lower(m.property), Lower(search));
    EmptyIsContained(m.meterNumber);
    Contains(m.meterNumber, search)
    || Contains(Lower(m.tenantName), Lower(search))
    || Contains(Lower(m.property), Lower(search))
  }

  /** `filteredMeters`. */
  function FilterMeters(ms: seq<Meter>, search: string): (r: seq<Meter>)
    ensures IsSubseq(r, ms)
    ensures forall i :: 0 <= i < |r| ==> r[i] in ms && MatchesSearch(r[i], search)
    ensures forall i :: 0 <= i < |ms| && MatchesSearch(ms[i], search) ==> ms[i] in r
    ensures forall m :: multiset(r)[m] == if MatchesSearch(m, search) then multiset(ms)[m] else 0
  {
    var keep := (m: Meter) => MatchesSearch(m, search);
    FilterIsSubseq(keep, ms);
    FilterMembers(keep, ms);
    FilterMultiset(keep, ms);
    Filter(keep, ms)
  }

  /** An empty search shows every meter, in order. */
  lemma EmptySearchKeepsAll(ms: seq<Meter>)
    ensures FilterMeters(ms, "") == ms
  {
    FilterAllKept((m: Meter) => MatchesSearch(m, ""), ms);
  }

  /** The registry page: the meter list, the search text and the add / edit modal. */
  class MeterRegistry {
    var meters: seq<Meter>
    var search: string
    var isModalOpen: bool
    var editingMeter: Option<Meter>
    var form: MeterForm
    var error: string

    /** Meter numbers and ids are each pairwise distinct. */
    ghost predicate Valid()
      reads this
    {
      DistinctNumbers(meters) && DistinctIds(meters)
    }

    /** The saved list, or the two sample meters when nothing was saved. */
    constructor(saved: Option<seq<Meter>>, id1: string, id2: string, now1: int, now2: int)
      ensures saved.Some? ==> meters == saved.value
      ensures saved.None? ==> meters == [
        Meter(id1, "12345678901", "Alice Johnson", "Silver Heights", "Unit 4A", Active, now1),
        Meter(id2, "98765432109", "Bob Smith", "Oak Ridge", "Suite 200", Active, now2)]
      ensures saved.None? && id1 != id2 ==> Valid()
      ensures search == "" && !isModalOpen && editingMeter == None && form == EmptyForm && error == ""
    {
      if saved.Some? {
        meters := saved.value;
      } else {
        meters := [
          Meter(id1, "12345678901", "Alice Johnson", "Silver Heights", "Unit 4A", Active, now1),
          Meter(id2, "98765432109", "Bob Smith", "Oak Ridge", "Suite 200", Active, now2)];
      }
      search := "";
      isModalOpen := false;
      editingMeter := None;
      form := EmptyForm;
      error := "";
    }

    /** `handleOpenAdd`. */
    method OpenAdd()
      modifies this
      ensures editingMeter == None && form == EmptyForm && error == "" && isModalOpen
      ensures meters == old(meters) && search == old(search)
    {
      editingMeter := None;
      form := EmptyForm;
      error := "";
      isModalOpen := true;
    }

    /** `handleOpenEdit`: the form starts from the meter's current fields. */
    method OpenEdit(m: Meter)
      modifies this
      ensures editingMeter == Some(m) && error == "" && isModalOpen
      ensures form == MeterForm(m.meterNumber, m.tenantName, m.property, m.unit, m.status)
      ensures meters == old(meters) && search == old(search)
    {
      editingMeter := Some(m);
      form := MeterForm(m.meterNumber, m.tenantName, m.property, m.unit, m.status);
      error := "";
      isModalOpen := true;
    }

    /** The backdrop, the close button and Cancel: the modal closes and nothing is saved. */
    method CloseModal()
      modifies this
      ensures !isModalOpen
      ensures meters == old(meters) && search == old(search) && editingMeter == old(editingMeter)
      ensures form == old(form) && error == old(error)
    {
      isModalOpen := false;
    }

    /** The meter number input's change handler: every non-digit is dropped. */
    method SetMeterNumber(typed: string)
      modifies this
      ensures form == old(form).(meterNumber := StripNonDigits(typed))
      ensures AllDigits(form.meterNumber)
      ensures meters == old(meters) && search == old(search) && editingMeter == old(editingMeter)
      ensures isModalOpen == old(isModalOpen) && error == old(error)
    {
      form := form.(meterNumber := StripNonDigits(typed));
    }

    method SetTenantName(typed: string)
      modifies this
      ensures form == old(form).(tenantName := typed)
      ensures meters == old(meters) && search == old(search) && editingMeter == old(editingMeter)
      ensures isModalOpen == old(isModalOpen) && error == old(error)
    {
      form := form.(tenantName := typed);
    }

    method SetProperty(typed: string)
      modifies this
      ensures form == old(form).(property := typed)
      ensures meters == old(meters) && search == old(search) && editingMeter == old(editingMeter)
      ensures isModalOpen == old(isModalOpen) && error == old(error)
    {
      form := form.(property := typed);
    }

    method SetUnit(typed: string)
      modifies this
      ensures form == old(form).(unit := typed)
      ensures meters == old(meters) && search == old(search) && editingMeter == old(editingMeter)
      ensures isModalOpen == old(isModalOpen) && error == old(error)
    {
      form := form.(unit := typed);
    }

    /** The status select offers only the two statuses. */
    method SetStatus(chosen: MeterStatus)
      modifies this
      ensures form == old(form).(status := chosen)
      ensures meters == old(meters) && search == old(search) && editingMeter == old(editingMeter)
      ensures isModalOpen == old(isModalOpen) && error == old(error)
    {
      form := form.(status := chosen);
    }

    /**
     * `handleSave`: reject a malformed or duplicate number, otherwise update
     * the meter being edited or put a new meter in front of the list.
     */
    method Save(newId: string, now: int)
      modifies this
      ensures form == old(form) && editingMeter == old(editingMeter) && search == old(search)
      ensures !ValidMeterNumber(form.meterNumber) ==>
        meters == old(meters) && error == InvalidNumberMessage && isModalOpen == old(isModalOpen)
      ensures (ValidMeterNumber(form.meterNumber) && IsDuplicate(old(meters), form.meterNumber, EditingId(editingMeter))) ==>
        meters == old(meters) && error == DuplicateMessage && isModalOpen == old(isModalOpen)
      ensures (ValidMeterNumber(form.meterNumber) && !IsDuplicate(old(meters), form.meterNumber, EditingId(editingMeter))) ==>
        error == "" && !isModalOpen
        && meters == (if editingMeter.Some? then ApplyEdit(old(meters), editingMeter.value.id, form)
                      else [NewMeter(newId, form, now)] + old(meters))
      ensures old(Valid()) && (forall i :: 0 <= i < |old(meters)| ==> old(meters)[i].id != newId) ==> Valid()
    {
      error := "";
      if !ValidMeterNumber(form.meterNumber) {
        error := InvalidNumberMessage;
        return;
      }
      var editingId := EditingId(editingMeter);
      if IsDuplicate(meters, form.meterNumber, editingId) {
        error := DuplicateMessage;
        return;
      }
      if editingMeter.Some? {
        if DistinctNumbers(meters) && DistinctIds(meters) {
          EditKeepsDistinct(meters, editingMeter.value.id, form);
        }
        meters := ApplyEdit(meters, editingMeter.value.id, form);
      } else {
        var m := NewMeter(newId, form, now);
        if DistinctNumbers(meters) && DistinctIds(meters) && forall i :: 0 <= i < |meters| ==> meters[i].id != newId {
          AddKeepsDistinct(meters, m);
        }
        meters := [m] + meters;
      }
      isModalOpen := false;
    }

    /** `toggleStatus`. */
    method ToggleStatus(id: string)
      modifies this
      ensures meters == Toggled(old(meters), id)
      ensures search == old(search) && isModalOpen == old(isModalOpen) && editingMeter == old(editingMeter)
      ensures form == old(form) && error == old(error)
      ensures old(Valid()) ==> Valid()
    {
      if Valid() {
        ToggleKeepsDistinct(meters, id);
      }
      meters := Toggled(meters, id);
    }

    method SetSearch(text: string)
      modifies this
      ensures search == text
      ensures meters == old(meters) && isModalOpen == old(isModalOpen) && editingMeter == old(editingMeter)
      ensures form == old(form) && error == old(error)
    {
      search := text;
    }

    /** The rows shown in the table. */
    function Shown(): seq<Meter>
      reads this
    {
      FilterMeters(meters, search)
    }
  }
}

=== FILE: reports.dfy ===
/**
 * The financial reports page (pages/Reports.tsx): an inclusive date-range
 * filter over the token list, the totals over the filtered tokens, and the
 * CSV text of the export.
 */
module Reports {
  import opened Wrappers
  import opened Seqs
  import opened Text
  import opened Types
  import opened Csv

  /** The two date inputs; `None` is an empty input. */
  datatype DateRange = DateRange(start: Option<int>, end: Option<int>)

  /** The filter's test: everything passes while either bound is empty, otherwise both bounds are inclusive. */
  predicate InRange(t: Token, range: DateRange)
  {
    range.start.None? || range.end.None? || (range.start.value <= t.createdAt <= range.end.value)
  }

  /** `filteredData`. */
  function FilteredData(tokens: seq<Token>, range: DateRange): (r: seq<Token>)
    ensures IsSubseq(r, tokens)
    ensures forall i :: 0 <= i < |r| ==> r[i] in tokens && InRange(r[i], range)
    ensures forall i :: 0 <= i < |tokens| && InRange(tokens[i], range) ==> tokens[i] in r
    ensures forall t :: multiset(r)[t] == if InRange(t, range) then multiset(tokens)[t] else 0
  {
    var keep := (t: Token) => InRange(t, range);
    FilterIsSubseq(keep, tokens);
    FilterMembers(keep, tokens);
    FilterMultiset(keep, tokens);
    Filter(keep, tokens)
  }

  /** With a bound left empty, the report covers every token in order. */
  lemma OpenRangeKeepsAll(tokens: seq<Token>, range: DateRange)
    requires range.start.None? || range.end.None?
    ensures FilteredData(tokens, range) == tokens
  {
    FilterAllKept((t: Token) => InRange(t, range), tokens);
  }

  /** With both bounds set, a token is reported iff its date lies between them, both ends included. */
  lemma ClosedRangeMembership(tokens: seq<Token>, start: int, end: int, t: Token)
    requires t in tokens
    ensures t in FilteredData(tokens, DateRange(Some(start), Some(end))) <==> start <= t.createdAt <= end
  {
  }

  datatype ReportStats = ReportStats(totalAmount: real, totalCharges: real, totalUnits: real)

  /** `stats`: the three totals over the filtered tokens. */
  function Stats(filtered: seq<Token>): (s: ReportStats)
    ensures filtered == [] ==> s == ReportStats(0.0, 0.0, 0.0)
  {
    ReportStats(Sum(AmountOf, filtered), Sum(ChargeOf, filtered), Sum(UnitsOf, filtered))
  }

  /** A token column is never negative in any token of the list. */
  predicate NonNegativeColumns(tokens: seq<Token>)
  {
    forall i :: 0 <= i < |tokens| ==>
      tokens[i].amount >= 0.0 && tokens[i].totalServiceCharge >= 0.0 && tokens[i].units >= 0.0
  }

  /**
   * The totals over the tokens inside the range and over those outside it
   * add up to the totals over all tokens.
   */
  lemma StatsPartition(tokens: seq<Token>, range: DateRange)
    ensures var inside := Stats(FilteredData(tokens, range));
      var outside := Stats(Filter((t: Token) => !InRange(t, range), tokens));
      var all := Stats(tokens);
      inside.totalAmount + outside.totalAmount == all.totalAmount
      && inside.totalCharges + outside.totalCharges == all.totalCharges
      && inside.totalUnits + outside.totalUnits == all.totalUnits
  {
    var p := (t: Token) => InRange(t, range);
    var q := (t: Token) => !InRange(t, range);
    SumFilterSplit(AmountOf, p, q, tokens);
    SumFilterSplit(ChargeOf, p, q, tokens);
    SumFilterSplit(UnitsOf, p, q, tokens);
  }

  /** With non-negative columns, a date range can only lower each total, never below zero. */
  lemma StatsBounded(tokens: seq<Token>, range: DateRange)
    requires NonNegativeColumns(tokens)
    ensures var inside := Stats(FilteredData(tokens, range));
      var all := Stats(tokens);
      0.0 <= inside.totalAmount <= all.totalAmount
      && 0.0 <= inside.totalCharges <= all.totalCharges
      && 0.0 <= inside.totalUnits <= all.totalUnits
  {
    var p := (t: Token) => InRange(t, range);
    FilterSumBounded(AmountOf, p, tokens);
    FilterSumBounded(ChargeOf, p, tokens);
    FilterSumBounded(UnitsOf, p, tokens);
  }

  // ---------------------------------------------------------------------------
  // CSV export

  const Headers: seq<string> := ["ID", "Token Code", "Meter #", "Amount", "Units", "Service Charge", "Date"]

  /**
   * The seven values of a token's row. `money` stands for `toFixed(2)` and
   * `date` for `toLocaleDateString()`, which are not part of this model.
   */
  function RowValues(t: Token, money: real -> string, date: int -> string): (r: seq<string>)
    ensures |r| == |Headers|
  {
    [t.id, t.tokenCode, t.meterNumber, money(t.amount), money(t.units), money(t.totalServiceCharge), date(t.createdAt)]
  }

  /** A token's row as written: every value escaped. */
  function RowTexts(t: Token, money: real -> string, date: int -> string): (r: seq<string>)
    ensures |r| == |Headers|
    ensures forall k :: 0 <= k < |r| ==> r[k] == Escape(RowValues(t, money, date)[k])
  {
    seq(|Headers|, k requires 0 <= k < |Headers| => Escape(RowValues(t, money, date)[k]))
  }

  /** The header row, written unescaped, followed by one row per token in order. */
  function Table(filtered: seq<Token>, money: real -> string, date: int -> string): (rows: seq<seq<string>>)
    ensures |rows| == |filtered| + 1 && rows[0] == Headers
    ensures forall i :: 0 <= i < |filtered| ==> rows[i + 1] == RowTexts(filtered[i], money, date)
  {
    [Headers] + seq(|filtered|, i requires 0 <= i < |filtered| => RowTexts(filtered[i], money, date))
  }

  /**
   * The CSV text of the export (without the `data:` URI prefix): the header
   * names joined by commas, unescaped, come first, and alone when no token
   * is reported.
   */
  function CsvBody(filtered: seq<Token>, money: real -> string, date: int -> string): (r: string)
    ensures StartsWith(r, Join(Headers, ","))
    ensures filtered == [] ==> r == Join(Headers, ",")
  {
    var rows := Table(filtered, money, date);
    assert Lines(rows)[0] == Join(Headers, ",");
    JoinStartsWithFirst(Lines(rows), "\n");
    Document(rows)
  }

  /** The header row needs no quoting: none of its names holds a quote, comma or line feed. */
  lemma HeadersAreBare()
    ensures forall k :: 0 <= k < |Headers| ==> Bare(Headers[k])
  {
    assert Bare("ID");
    assert Bare("Token Code");
    assert Bare("Meter #");
    assert Bare("Amount");
    assert Bare("Units");
    assert Bare("Service Charge");
    assert Bare("Date");
  }

  /**
   * Reading the exported text (RFC 4180 fields, line-feed records) gives the header names followed by
   * each filtered token's seven values, in order, whatever the values contain.
   */
  lemma CsvReadsBack(filtered: seq<Token>, money: real -> string, date: int -> string)
    ensures ParseRecords(CsvBody(filtered, money, date))
      == Some([Headers] + seq(|filtered|, i requires 0 <= i < |filtered| => RowValues(filtered[i], money, date)))
  {
    var rows := Table(filtered, money, date);
    var values := [Headers] + seq(|filtered|, i requires 0 <= i < |filtered| => RowValues(filtered[i], money, date));
    HeadersAreBare();
    forall i, k | 0 <= i < |rows| && 0 <= k < |rows[i]| ensures Encodes(rows[i][k], values[i][k]) {
      if i > 0 {
        assert rows[i] == RowTexts(filtered[i - 1], money, date);
      }
    }
    DocumentRoundTrip(rows, values);
  }
}

=== FILE: seqs.dfy ===
/**
 * Sequence combinators standing for the JavaScript array methods the pages use:
 * `filter`, `reduce` with `+`, and the order-preserving sub-list relation that
 * `filter` and `slice` produce.
 */
module Seqs {

  /** `s.filter(p)`: the elements satisfying `p`, in their original order. */
  function Filter<T>(p: T -> bool, s: seq<T>): (r: seq<T>)
    ensures |r| <= |s|
    ensures forall i :: 0 <= i < |r| ==> p(r[i])
  {
    if s == [] then []
    else if p(s[0]) then [s[0]] + Filter(p, s[1..]) else Filter(p, s[1..])
  }

  /** What `filter` keeps comes from the list, and everything in the list that passes is kept. */
  lemma {:induction false} FilterMembers<T>(p: T -> bool, s: seq<T>)
    ensures forall x :: x in Filter(p, s) <==> x in s && p(x)
  {
    if s != [] {
      FilterMembers(p, s[1..]);
      assert s == [s[0]] + s[1..];
    }
  }

  /** `filter` keeps every occurrence of a passing element and none of a failing one. */
  lemma {:induction false} FilterMultiset<T>(p: T -> bool, s: seq<T>)
    ensures forall x :: multiset(Filter(p, s))[x] == if p(x) then multiset(s)[x] else 0
  {
    if s != [] {
      FilterMultiset(p, s[1..]);
      assert s == [s[0]] + s[1..];
      assert multiset(s) == multiset{s[0]} + multiset(s[1..]);
    }
  }

  /** `r` can be obtained from `s` by deleting elements: an order-preserving sub-list. */
  ghost predicate IsSubseq<T>(r: seq<T>, s: seq<T>)
    decreases |s|
  {
    if r == [] then true
    else if s == [] then false
    else (r[0] == s[0] && IsSubseq(r[1..], s[1..])) || IsSubseq(r, s[1..])
  }

  lemma {:induction false} FilterIsSubseq<T>(p: T -> bool, s: seq<T>)
    ensures IsSubseq(Filter(p, s), s)
  {
    if s != [] {
      FilterIsSubseq(p, s[1..]);
      if !p(s[0]) {
        SubseqDropHead(Filter(p, s[1..]), s);
      }
    }
  }

  lemma {:induction false} SubseqDropHead<T>(r: seq<T>, s: seq<T>)
    requires s != [] && IsSubseq(r, s[1..])
    ensures IsSubseq(r, s)
  {
  }

  /** A prefix is an order-preserving sub-list. */
  lemma {:induction false} PrefixIsSubseq<T>(s: seq<T>, k: nat)
    requires k <= |s|
    ensures IsSubseq(s[..k], s)
    decreases |s|
  {
    if k > 0 {
      PrefixIsSubseq(s[1..], k - 1);
      assert s[..k][1..] == s[1..][..k - 1];
    } else if s != [] {
      assert s[..k] == [];
    }
  }

  /** Sub-lists compose: a sub-list of a sub-list is a sub-list. */
  lemma {:induction false} SubseqTransitive<T>(a: seq<T>, b: seq<T>, c: seq<T>)
    requires IsSubseq(a, b) && IsSubseq(b, c)
    ensures IsSubseq(a, c)
    decreases |c|
  {
    if a != [] {
      assert b != [] && c != [];
      if b[0] == c[0] && IsSubseq(b[1..], c[1..]) {
        if a[0] == b[0] && IsSubseq(a[1..], b[1..]) {
          SubseqTransitive(a[1..], b[1..], c[1..]);
        } else {
          SubseqTransitive(a, b[1..], c[1..]);
          SubseqDropHead(a, c);
        }
      } else {
        SubseqTransitive(a, b, c[1..]);
        SubseqDropHead(a, c);
      }
    }
  }

  lemma {:induction false} FilterAllKept<T>(p: T -> bool, s: seq<T>)
    requires forall i :: 0 <= i < |s| ==> p(s[i])
    ensures Filter(p, s) == s
  {
    if s != [] {
      FilterAllKept(p, s[1..]);
    }
  }

  lemma {:induction false} FilterConcat<T>(p: T -> bool, a: seq<T>, b: seq<T>)
    ensures Filter(p, a + b) == Filter(p, a) + Filter(p, b)
  {
    if a == [] {
      assert a + b == b;
    } else {
      assert (a + b)[1..] == a[1..] + b;
      FilterConcat(p, a[1..], b);
    }
  }

  /** Filtering a list in which only position `k` may fail the test drops at most that element. */
  lemma FilterAllButOne<T>(p: T -> bool, s: seq<T>, k: nat)
    requires k < |s|
    requires forall i :: 0 <= i < |s| && i != k ==> p(s[i])
    ensures Filter(p, s) == if p(s[k]) then s else s[..k] + s[k + 1..]
  {
    var before, x, after := s[..k], s[k], s[k + 1..];
    forall i | 0 <= i < |before| ensures p(before[i]) {
      assert before[i] == s[i];
    }
    forall i | 0 <= i < |after| ensures p(after[i]) {
      assert after[i] == s[k + 1 + i];
    }
    FilterAround(p, before, x, after);
    SplitAt(s, k);
  }

  lemma SplitAt<T>(s: seq<T>, k: nat)
    requires k < |s|
    ensures s == s[..k] + [s[k]] + s[k + 1..]
  {
  }

  lemma FilterAround<T>(p: T -> bool, a: seq<T>, x: T, b: seq<T>)
    requires forall i :: 0 <= i < |a| ==> p(a[i])
    requires forall i :: 0 <= i < |b| ==> p(b[i])
    ensures Filter(p, a + [x] + b) == if p(x) then a + [x] + b else a + b
  {
    if p(x) { FilterAroundKept(p, a, x, b); } else { FilterAroundDropped(p, a, x, b); }
  }

  lemma FilterAroundKept<T>(p: T -> bool, a: seq<T>, x: T, b: seq<T>)
    requires forall i :: 0 <= i < |a| ==> p(a[i])
    requires forall i :: 0 <= i < |b| ==> p(b[i])
    requires p(x)
    ensures Filter(p, a + [x] + b) == a + [x] + b
  {
    FilterConcat(p, a + [x], b);
    FilterConcat(p, a, [x]);
    FilterAllKept(p, a);
    FilterAllKept(p, b);
    assert Filter(p, [x]) == [x];
  }

  lemma FilterAroundDropped<T>(p: T -> bool, a: seq<T>, x: T, b: seq<T>)
    requires forall i :: 0 <= i < |a| ==> p(a[i])
    requires forall i :: 0 <= i < |b| ==> p(b[i])
    requires !p(x)
    ensures Filter(p, a + [x] + b) == a + b
  {
    FilterConcat(p, a + [x], b);
    FilterConcat(p, a, [x]);
    FilterAllKept(p, a);
    FilterAllKept(p, b);
    assert Filter(p, [x]) == [];
    assert a + [] == a;
  }

  /** `s.reduce((acc, x) => acc + f(x), 0)`; real addition is associative, so the right fold gives the same total. */
  function Sum<T>(f: T -> real, s: seq<T>): real
  {
    if s == [] then 0.0 else f(s[0]) + Sum(f, s[1..])
  }

  lemma {:induction false} SumConcat<T>(f: T -> real, a: seq<T>, b: seq<T>)
    ensures Sum(f, a + b) == Sum(f, a) + Sum(f, b)
  {
    if a != [] {
      assert (a + b)[1..] == a[1..] + b;
      SumConcat(f, a[1..], b);
    } else {
      assert a + b == b;
    }
  }

  /** Splitting a list by a predicate splits its total: the kept part plus the dropped part. */
  lemma {:induction false} SumFilterSplit<T>(f: T -> real, p: T -> bool, q: T -> bool, s: seq<T>)
    requires forall x :: q(x) == !p(x)
    ensures Sum(f, s) == Sum(f, Filter(p, s)) + Sum(f, Filter(q, s))
  {
    if s != [] {
      SumFilterSplit(f, p, q, s[1..]);
    }
  }

  lemma {:induction false} SumNonNegative<T>(f: T -> real, s: seq<T>)
    requires forall i :: 0 <= i < |s| ==> f(s[i]) >= 0.0
    ensures Sum(f, s) >= 0.0
  {
    if s != [] {
      SumNonNegative(f, s[1..]);
    }
  }

  lemma {:induction false} FilterKeepsBound<T>(f: T -> real, p: T -> bool, s: seq<T>)
    requires forall i :: 0 <= i < |s| ==> f(s[i]) >= 0.0
    ensures forall i :: 0 <= i < |Filter(p, s)| ==> f(Filter(p, s)[i]) >= 0.0
  {
    if s != [] {
      FilterKeepsBound(f, p, s[1..]);
    }
  }

  /** With non-negative terms, a filtered total never exceeds the full total. */
  lemma FilterSumBounded<T>(f: T -> real, p: T -> bool, s: seq<T>)
    requires forall i :: 0 <= i < |s| ==> f(s[i]) >= 0.0
    ensures 0.0 <= Sum(f, Filter(p, s)) <= Sum(f, s)
  {
    var q := (x: T) => !p(x);
    SumFilterSplit(f, p, q, s);
    FilterKeepsBound(f, q, s);
    FilterKeepsBound(f, p, s);
    SumNonNegative(f, Filter(q, s));
    SumNonNegative(f, Filter(p, s));
  }
}

=== FILE: sidebar.dfy ===
/** The navigation sidebar (components/Sidebar.tsx): a fixed item table filtered by role. */
module Sidebar {
  import opened Wrappers
  import opened Seqs
  import opened Types

  /** `label` is a Dafny keyword, so the label is `caption` here. */
  datatype NavItem = NavItem(id: string, caption: string, roleRequired: Option<seq<UserRole>>)

  const NavItems: seq<NavItem> := [
    NavItem("dashboard", "Dashboard", None),
    NavItem("meters", "Meters", None),
    NavItem("vending", "Token Vending", None),
    NavItem("reports", "Reports", None),
    NavItem("users", "Staff Management", Some([Admin])),
    NavItem("docs", "Architecture Docs", None)]

  /** An item is hidden only when it names roles and the user's role is not among them. */
  predicate Visible(item: NavItem, role: UserRole)
  {
    item.roleRequired.None? || role in item.roleRequired.value
  }

  /** The items of `items` the role may see, in table order. */
  function VisibleAmong(items: seq<NavItem>, role: UserRole): (r: seq<NavItem>)
    ensures IsSubseq(r, items)
    ensures forall i :: 0 <= i < |r| ==> r[i] in items && Visible(r[i], role)
    ensures forall i :: 0 <= i < |items| && Visible(items[i], role) ==> items[i] in r
    ensures forall x :: multiset(r)[x] == if Visible(x, role) then multiset(items)[x] else 0
  {
    var keep := VisibleTo(role);
    FilterIsSubseq(keep, items);
    FilterMembers(keep, items);
    FilterMultiset(keep, items);
    Filter(keep, items)
  }

  /** A listed item is shown exactly when the role may see it. */
  lemma VisibleMember(items: seq<NavItem>, role: UserRole, x: NavItem)
    requires x in items
    ensures x in VisibleAmong(items, role) <==> Visible(x, role)
  {
    var r := VisibleAmong(items, role);
    if x in r {
      var i :| 0 <= i < |r| && r[i] == x;
    }
  }

  /** The sidebar's `filteredItems`. */
  function VisibleItems(role: UserRole): seq<NavItem>
  {
    VisibleAmong(NavItems, role)
  }

  function VisibleTo(role: UserRole): NavItem -> bool
  {
    (item: NavItem) => Visible(item, role)
  }

  /** Items that name no role are shown to everyone. */
  lemma UnrestrictedAlwaysShown(role: UserRole, i: nat)
    requires i < |NavItems| && NavItems[i].roleRequired.None?
    ensures NavItems[i] in VisibleItems(role)
  {
  }

  /** Staff management is listed exactly for administrators. */
  lemma UsersItemIffAdmin(role: UserRole)
    ensures NavItems[4] in VisibleItems(role) <==> role == Admin
    ensures NavItems[4].id == "users"
  {
    VisibleMember(NavItems, role, NavItems[4]);
    OnlyUsersRestricted(role);
  }

  lemma OnlyUsersRestricted(role: UserRole)
    ensures forall i :: 0 <= i < |NavItems| && i != 4 ==> VisibleTo(role)(NavItems[i])
    ensures VisibleTo(role)(NavItems[4]) <==> role == Admin
  {
  }

  /** An administrator sees the whole table; the other roles see all but staff management. */
  lemma ItemsPerRole(role: UserRole)
    ensures VisibleItems(role) == if role == Admin then NavItems else NavItems[..4] + NavItems[5..]
    ensures |VisibleItems(role)| == if role == Admin then 6 else 5
  {
    OnlyUsersRestricted(role);
    FilterAllButOne(VisibleTo(role), NavItems, 4);
  }

  datatype NavButton = NavButton(id: string, caption: string, isActive: bool)

  /** One button per item, in order, the one whose id is the current page highlighted. */
  function ButtonsFor(items: seq<NavItem>, activePage: string): (r: seq<NavButton>)
    ensures |r| == |items|
    ensures forall i :: 0 <= i < |r| ==> r[i].id == items[i].id && r[i].caption == items[i].caption
    ensures forall i :: 0 <= i < |r| ==> (r[i].isActive <==> r[i].id == activePage)
  {
    seq(|items|, i requires 0 <= i < |items| => NavButton(items[i].id, items[i].caption, items[i].id == activePage))
  }

  /** The rendered sidebar: a button for every item the role may see. */
  function Buttons(activePage: string, role: UserRole): seq<NavButton>
  {
    ButtonsFor(VisibleItems(role), activePage)
  }

  /** Clicking a button navigates to its item's id. */
  function ClickTarget(b: NavButton): (page: string)
    ensures page == b.id
  {
    b.id
  }

  lemma NavIdsDistinct()
    ensures forall a, b :: 0 <= a < b < |NavItems| ==> NavItems[a].id != NavItems[b].id
  {
  }

  /** The table without staff management still has distinct ids. */
  lemma OthersIdsDistinct()
    ensures var others := NavItems[..4] + NavItems[5..];
      forall a, b :: 0 <= a < b < |others| ==> others[a].id != others[b].id
  {
    var others := NavItems[..4] + NavItems[5..];
    assert others == [NavItems[0], NavItems[1], NavItems[2], NavItems[3], NavItems[5]];
  }

  /** The visible items have pairwise distinct ids. */
  lemma VisibleIdsDistinct(role: UserRole, i: nat, j: nat)
    requires i < j < |VisibleItems(role)|
    ensures VisibleItems(role)[i].id != VisibleItems(role)[j].id
  {
    ItemsPerRole(role);
    if role == Admin {
      NavIdsDistinct();
    } else {
      OthersIdsDistinct();
    }
  }

  /** Item ids are distinct, so at most one button is ever highlighted. */
  lemma AtMostOneActive(activePage: string, role: UserRole, i: nat, j: nat)
    requires i < j < |Buttons(activePage, role)|
    ensures !(Buttons(activePage, role)[i].isActive && Buttons(activePage, role)[j].isActive)
  {
    VisibleIdsDistinct(role, i, j);
  }
}

=== FILE: sign_up.dfy ===
/**
 * The sign-up page (pages/SignUp.tsx): two password guards checked in
 * order, then a new user built from the form.
 */
module SignUp {
  import opened Wrappers
  import opened Types
  import opened Text

  datatype SignUpForm = SignUpForm(
    name: string,
    email: string,
    password: string,
    confirmPassword: string,
    role: UserRole)

  /** The initial form: empty fields and the Officer role. */
  const DefaultForm := SignUpForm("", "", "", "", Officer)

  const NewUserToken := "mock-jwt-token-new-user"

  datatype SignUpError = PasswordMismatch | PasswordTooShort

  function Message(e: SignUpError): string
  {
    match e
    case PasswordMismatch => "Passwords do not match"
    case PasswordTooShort => "Password must be at least 6 characters"
  }

  /**
   * The guards: the confirmation must match, and only then is the length
   * checked, as `length` counts it (UTF-16 code units).
   */
  function CheckPasswords(password: string, confirm: string): (r: Option<SignUpError>)
    ensures r == None <==> password == confirm && Utf16Length(password) >= 6
    ensures password != confirm ==> r == Some(PasswordMismatch)
    ensures password == confirm && Utf16Length(password) < 6 ==> r == Some(PasswordTooShort)
  {
    if password != confirm then Some(PasswordMismatch)
    else if Utf16Length(password) < 6 then Some(PasswordTooShort)
    else None
  }

  /** The user handed to `onSignUp`: a fresh id, the form's name, email and role, and the creation time. */
  function NewUser(form: SignUpForm, id: string, now: int): (u: User)
    ensures u.name == form.name && u.email == form.email && u.role == form.role
    ensures u.id == id && u.createdAt == now
  {
    User(id, form.name, form.email, form.role, now)
  }

  datatype Outcome = Rejected(error: SignUpError) | Accepted(user: User, token: string)

  /** What a submission leads to; the role plays no part in the decision. */
  function Submit(form: SignUpForm, id: string, now: int): (r: Outcome)
    ensures r.Accepted? <==> form.password == form.confirmPassword && Utf16Length(form.password) >= 6
    ensures r.Accepted? ==>
      r.user.role == form.role && r.user.name == form.name && r.user.email == form.email && r.token == NewUserToken
  {
    match CheckPasswords(form.password, form.confirmPassword)
    case Some(e) => Rejected(e)
    case None => Accepted(NewUser(form, id, now), NewUserToken)
  }

  /** Three emoji pass the length guard: `length` counts six code units for them. */
  lemma EmojiPasswordAccepted()
    ensures CheckPasswords("\U{1F600}\U{1F600}\U{1F600}", "\U{1F600}\U{1F600}\U{1F600}") == None
  {
    EmojiUtf16Length();
  }

  /** Any role is accepted, Administrator included: changing the role changes nothing but the user's role. */
  lemma AnyRolePasses(form: SignUpForm, role: UserRole, id: string, now: int)
    ensures Submit(form.(role := role), id, now).Accepted? == Submit(form, id, now).Accepted?
    ensures Submit(form.(role := role), id, now).Accepted? ==> Submit(form.(role := role), id, now).user.role == role
  {
  }

  class SignUpPage {
    var form: SignUpForm
    var error: string
    var loading: bool

    constructor()
      ensures form == DefaultForm && form.role == Officer && error == "" && !loading
    {
      form := DefaultForm;
      error := "";
      loading := false;
    }

    method SetForm(f: SignUpForm)
      modifies this
      ensures form == f && error == old(error) && loading == old(loading)
    {
      form := f;
    }

    /**
     * `handleSubmit`: a rejection shows its message and clears `loading`;
     * an acceptance returns the user and token that `onSignUp` receives and
     * leaves `loading` set.
     */
    method HandleSubmit(id: string, now: int) returns (signedUp: Option<(User, string)>)
      modifies this
      ensures form == old(form)
      ensures Submit(form, id, now).Rejected? ==>
        signedUp == None && error == Message(Submit(form, id, now).error) && !loading
      ensures Submit(form, id, now).Accepted? ==>
        signedUp == Some((NewUser(form, id, now), NewUserToken)) && error == "" && loading
    {
      loading := true;
      error := "";
      if form.password != form.confirmPassword {
        error := Message(PasswordMismatch);
        loading := false;
        return None;
      }
      if Utf16Length(form.password) < 6 {
        error := Message(PasswordTooShort);
        loading := false;
        return None;
      }
      signedUp := Some((NewUser(form, id, now), NewUserToken));
    }
  }
}

=== FILE: text.dfy ===
/**
 * String helpers standing for the JavaScript built-ins the pages call:
 * the `\d` character class, `String.prototype.includes`, an ASCII-only
 * `toLowerCase`, `Array.prototype.join` and `String(n)` for naturals.
 */
module Text {
  import opened Seqs

  /** The regular-expression class `\d`: the ASCII digits only. */
  predicate IsDigit(c: char) { '0' <= c <= '9' }

  predicate AllDigits(s: string) { forall i :: 0 <= i < |s| ==> IsDigit(s[i]) }

  /** `s.replace(/\D/g, '')`: every non-digit removed, the digits kept in order. */
  function StripNonDigits(s: string): (r: string)
    ensures AllDigits(r) && |r| <= |s|
    ensures forall c :: multiset(r)[c] == if IsDigit(c) then multiset(s)[c] else 0
    ensures AllDigits(s) ==> r == s
  {
    var r := Filter(IsDigit, s);
    FilterMultiset(IsDigit, s);
    assert AllDigits(s) ==> r == s by {
      if AllDigits(s) { FilterAllKept(IsDigit, s); }
    }
    r
  }

  /** Stripping twice is stripping once: the handler's output is a fixed point. */
  lemma StripIdempotent(s: string)
    ensures StripNonDigits(StripNonDigits(s)) == StripNonDigits(s)
  {
  }

  /** The stripped text is an order-preserving sub-list of what was typed. */
  lemma StripKeepsOrder(s: string)
    ensures IsSubseq(StripNonDigits(s), s)
  {
    FilterIsSubseq(IsDigit, s);
  }

  /**
   * `s.length`: JavaScript strings are UTF-16, so a character beyond U+FFFF
   * (a surrogate pair) counts twice.
   */
  function Utf16Length(s: string): (n: nat)
    ensures |s| <= n <= 2 * |s|
  {
    if s == [] then 0 else (if s[0] as int >= 0x1_0000 then 2 else 1) + Utf16Length(s[1..])
  }

  /** The UTF-16 length is the character count exactly when no character lies beyond U+FFFF. */
  lemma {:induction false} Utf16LengthBmp(s: string)
    ensures Utf16Length(s) == |s| <==> forall i :: 0 <= i < |s| ==> s[i] as int < 0x1_0000
  {
    if s != [] {
      Utf16LengthBmp(s[1..]);
      assert forall i :: 1 <= i < |s| ==> s[i] == s[1..][i - 1];
    }
  }

  /** Digits are single code units, so a digit string's `length` is its character count. */
  lemma DigitsUtf16Length(s: string)
    requires AllDigits(s)
    ensures Utf16Length(s) == |s|
  {
    Utf16LengthBmp(s);
  }

  /** Three emoji make a `length` of 6. */
  lemma EmojiUtf16Length()
    ensures Utf16Length("\U{1F600}\U{1F600}\U{1F600}") == 6
  {
    var e := "\U{1F600}\U{1F600}\U{1F600}";
    assert e[1..][1..][1..] == [];
  }

  predicate StartsWith(s: string, prefix: string)
  {
    |prefix| <= |s| && s[..|prefix|] == prefix
  }

  /** `s.includes(sub)`: `sub` occurs in `s` at some position. */
  predicate Contains(s: string, sub: string)
    decreases |s|
  {
    StartsWith(s, sub) || (s != [] && Contains(s[1..], sub))
  }

  predicate OccursAt(s: string, sub: string, i: int)
  {
    0 <= i <= |s| - |sub| && s[i..i + |sub|] == sub
  }

  /** The recursive search agrees with "some position holds the substring". */
  lemma {:induction false} ContainsAt(s: string, sub: string)
    ensures Contains(s, sub) <==> exists i :: OccursAt(s, sub, i)
    decreases |s|
  {
    if StartsWith(s, sub) {
      assert OccursAt(s, sub, 0);
    }
    if s != [] {
      ContainsAt(s[1..], sub);
      if Contains(s[1..], sub) {
        var i :| OccursAt(s[1..], sub, i);
        assert s[1..][i..i + |sub|] == s[i + 1..i + 1 + |sub|];
        assert OccursAt(s, sub, i + 1);
      }
      if j :| OccursAt(s, sub, j) {
        if j > 0 {
          assert s[1..][j - 1..j - 1 + |sub|] == s[j..j + |sub|];
          assert OccursAt(s[1..], sub, j - 1);
        } else {
          assert StartsWith(s, sub);
        }
      }
    } else {
      if j :| OccursAt(s, sub, j) {
        assert StartsWith(s, sub);
      }
    }
  }

  lemma EmptyIsContained(s: string)
    ensures Contains(s, "")
  {
  }

  /** `toLowerCase` restricted to ASCII letters. */
  function LowerChar(c: char): (r: char)
    ensures 'A' <= c <= 'Z' ==> r as int == c as int + 32
    ensures !('A' <= c <= 'Z') ==> r == c
  {
    if 'A' <= c <= 'Z' then (c as int + 32) as char else c
  }

  function Lower(s: string): (r: string)
    ensures |r| == |s|
    ensures forall i :: 0 <= i < |s| ==> r[i] == LowerChar(s[i])
  {
    seq(|s|, i requires 0 <= i < |s| => LowerChar(s[i]))
  }

  /** `parts.join(sep)`. */
  function Join(parts: seq<string>, sep: string): string
  {
    if |parts| == 0 then ""
    else if |parts| == 1 then parts[0]
    else parts[0] + sep + Join(parts[1..], sep)
  }

  /** A joined text starts with its first part. */
  lemma JoinStartsWithFirst(parts: seq<string>, sep: string)
    requires |parts| >= 1
    ensures StartsWith(Join(parts, sep), parts[0])
  {
    if |parts| > 1 {
      assert Join(parts, sep) == parts[0] + (sep + Join(parts[1..], sep));
    }
  }

  predicate DigitsAndSpaces(s: string) { forall i :: 0 <= i < |s| ==> IsDigit(s[i]) || s[i] == ' ' }

  /** Digit groups joined by spaces hold nothing but digits and spaces. */
  lemma {:induction false} JoinDigitGroups(parts: seq<string>)
    requires forall k :: 0 <= k < |parts| ==> AllDigits(parts[k])
    ensures DigitsAndSpaces(Join(parts, " "))
  {
    if |parts| > 1 {
      JoinDigitGroups(parts[1..]);
      var a, b := parts[0] + " ", Join(parts[1..], " ");
      assert DigitsAndSpaces(a);
      assert forall i :: 0 <= i < |a + b| ==> (a + b)[i] == if i < |a| then a[i] else b[i - |a|];
    }
  }

  function DigitChar(d: nat): (c: char)
    requires d < 10
    ensures IsDigit(c)
  {
    (48 + d) as char
  }

  function DigitValue(c: char): nat
    requires IsDigit(c)
  {
    (c as int - 48) as nat
  }

  /** `String(n)` for a natural number: its decimal digits, no leading zero. */
  function DecimalString(n: nat): (s: string)
    ensures |s| >= 1 && AllDigits(s)
  {
    if n < 10 then [DigitChar(n)] else DecimalString(n / 10) + [DigitChar(n % 10)]
  }

  /** The value of a string of decimal digits. */
  function DecimalValue(s: string): nat
    requires AllDigits(s)
  {
    if s == [] then 0 else 10 * DecimalValue(s[..|s| - 1]) + DigitValue(s[|s| - 1])
  }

  lemma {:induction false} DecimalRoundTrip(n: nat)
    ensures DecimalValue(DecimalString(n)) == n
  {
    if n >= 10 {
      DecimalRoundTrip(n / 10);
      var s := DecimalString(n);
      assert s[..|s| - 1] == DecimalString(n / 10);
    }
  }

  /** The numbers 1000..9999 print with exactly four digits. */
  lemma FourDigitLength(n: nat)
    requires 1000 <= n <= 9999
    ensures |DecimalString(n)| == 4
  {
    assert 100 <= n / 10 <= 999;
    assert 10 <= n / 100 <= 99;
    assert 1 <= n / 1000 <= 9;
    assert n / 10 / 10 == n / 100;
    assert n / 100 / 10 == n / 1000;
    assert |DecimalString(n / 1000)| == 1;
    assert |DecimalString(n / 100)| == 2;
    assert |DecimalString(n / 10)| == 3;
  }
}

=== FILE: token_vending.dfy ===
/**
 * The token vending page (pages/TokenVending.tsx): the live charge
 * calculation, the ordered validation of a vend request, the random token
 * code, the loop that mints one token per requested code, and the
 * officer's last-five list.
 */
module Vending {
  import opened Wrappers
  import opened Seqs
  import opened Text
  import opened Types
  import Meters

  /** The vending form; `numberOfTokens` is whatever `parseInt` produced, so it may be any integer. */
  datatype VendForm = VendForm(
    meterNumber: string,
    numberOfTokens: int,
    amount: real,
    tariffRate: real,
    serviceCharge: real,
    serviceChargeType: ServiceChargeType)

  /** The form's initial values. */
  const DefaultForm := VendForm("", 1, 0.0, 25.5, 150.0, Flat)

  datatype Breakdown = Breakdown(totalServiceCharge: real, netAmount: real, units: real)

  // ---------------------------------------------------------------------------
  // Rounding: `parseFloat(x.toFixed(2))` on exact values.
  // `toFixed` rounds the magnitude to the nearest hundredth, ties upwards,
  // and puts the sign back.

  /** `k` hundredths. */
  function Cents(k: int): real { k as real / 100.0 }

  /** A value `toFixed(2)` can print exactly: a whole number of hundredths. */
  ghost predicate WholeCents(x: real) { exists k: int :: x == Cents(k) }

  function RoundMagnitude(x: real): (r: real)
    requires x >= 0.0
    ensures 0.0 <= r && x - 0.005 <= r <= x + 0.005
    ensures WholeCents(r)
  {
    var k := (x * 100.0 + 0.5).Floor;
    assert k as real / 100.0 == Cents(k);
    k as real / 100.0
  }

  function Round2(x: real): (r: real)
    ensures x - 0.005 <= r <= x + 0.005
    ensures WholeCents(r)
    ensures x >= 0.0 ==> r >= 0.0
    ensures x <= 0.0 ==> r <= 0.0
  {
    if x < 0.0 then
      var m := RoundMagnitude(-x);
      assert WholeCents(-m) by {
        var k :| m == Cents(k);
        assert -m == Cents(-k);
      }
      -m
    else RoundMagnitude(x)
  }

  function Max0(x: real): real { if x < 0.0 then 0.0 else x }

  /** `calculation`: service charge, net amount and energy units of the form. */
  function Calculate(form: VendForm): (b: Breakdown)
    ensures form.serviceChargeType == Flat ==> b.totalServiceCharge == form.serviceCharge
    ensures form.serviceChargeType == Percentage ==>
      b.totalServiceCharge == form.serviceCharge / 100.0 * form.amount
    ensures b.netAmount == form.amount - b.totalServiceCharge
    ensures b.units >= 0.0 && WholeCents(b.units)
    ensures form.tariffRate <= 0.0 || b.netAmount <= 0.0 ==> b.units == 0.0
    ensures form.tariffRate > 0.0 && b.netAmount > 0.0 ==>
      b.netAmount / form.tariffRate - 0.005 <= b.units <= b.netAmount / form.tariffRate + 0.005
  {
    var total :=
      if form.serviceChargeType == Flat then form.serviceCharge
      else form.serviceCharge / 100.0 * form.amount;
    var net := form.amount - total;
    var units := if form.tariffRate > 0.0 then net / form.tariffRate else 0.0;
    assert form.tariffRate > 0.0 && net <= 0.0 ==> units <= 0.0;
    assert WholeCents(0.0) by { assert 0.0 == Cents(0); }
    Breakdown(total, net, Max0(Round2(units)))
  }

  /** A percentage in [0, 100] of a non-negative amount never exceeds the amount. */
  lemma PercentageChargeBounded(form: VendForm)
    requires form.serviceChargeType == Percentage
    requires 0.0 <= form.serviceCharge <= 100.0 && form.amount >= 0.0
    ensures 0.0 <= Calculate(form).totalServiceCharge <= form.amount
    ensures Calculate(form).netAmount >= 0.0
  {
    var f := form.serviceCharge / 100.0;
    assert 0.0 <= f <= 1.0;
    MulNonNegative(1.0 - f, form.amount);
    assert (1.0 - f) * form.amount == form.amount - f * form.amount;
    MulNonNegative(f, form.amount);
  }

  /** The step the solver's non-linear arithmetic does not take on its own. */
  lemma MulNonNegative(a: real, b: real)
    requires a >= 0.0 && b >= 0.0
    ensures a * b >= 0.0
  {
  }

  /** The breakdown is not clamped: a flat charge above the amount gives a negative net amount and no units. */
  lemma FlatChargeAboveAmount(form: VendForm)
    requires form.serviceChargeType == Flat && form.serviceCharge > form.amount
    ensures Calculate(form).netAmount < 0.0 && Calculate(form).units == 0.0
  {
  }

  /** Worked example: 1000 at tariff 25.5 with a flat charge of 150. */
  lemma FlatScenario()
    ensures Calculate(VendForm("", 1, 1000.0, 25.5, 150.0, Flat)) == Breakdown(150.0, 850.0, 33.33)
  {
    var x := 850.0 / 25.5;
    assert (x * 100.0 + 0.5).Floor == 3333;
  }

  /** Worked example: 1000 at tariff 25.5 with a 10% charge. */
  lemma PercentageScenario()
    ensures Calculate(VendForm("", 1, 1000.0, 25.5, 10.0, Percentage)) == Breakdown(100.0, 900.0, 35.29)
  {
    var x := 900.0 / 25.5;
    assert (x * 100.0 + 0.5).Floor == 3529;
  }

  // ---------------------------------------------------------------------------
  // Validation

  datatype VendError =
    | InvalidMeterFormat
    | MeterNotFound
    | MeterInactive
    | InvalidAmount
    | NonPositiveNetAmount

  /** The text shown for each validation failure. */
  function Message(e: VendError): string
  {
    match e
    case InvalidMeterFormat => "Meter number must be exactly 11 digits."
    case MeterNotFound => "Meter number not found in database."
    case MeterInactive => "Meter is currently Inactive. Cannot vend tokens."
    case InvalidAmount => "Amount must be greater than zero."
    case NonPositiveNetAmount => "Net amount must be greater than zero. Check service charges."
  }

  /** `meters.find(m => m.meterNumber === num)`: the first meter with that number. */
  function FindMeter(meters: seq<Meter>, num: string): (r: Option<Meter>)
    ensures r.Some? <==> exists i :: 0 <= i < |meters| && meters[i].meterNumber == num
    ensures r.Some? ==> r.value in meters && r.value.meterNumber == num
    ensures r.Some? ==> exists i :: (0 <= i < |meters| && meters[i] == r.value
      && forall j :: 0 <= j < i ==> meters[j].meterNumber != num)
  {
    if meters == [] then None
    else if meters[0].meterNumber == num then Some(meters[0])
    else
      var r := FindMeter(meters[1..], num);
      assert forall i :: 1 <= i < |meters| ==> meters[i] == meters[1..][i - 1];
      assert r.Some? ==> exists i :: (0 <= i < |meters| && meters[i] == r.value
        && forall j :: 0 <= j < i ==> meters[j].meterNumber != num)
      by {
        if r.Some? {
          var i :| 0 <= i < |meters[1..]| && meters[1..][i] == r.value
            && forall j :: 0 <= j < i ==> meters[1..][j].meterNumber != num;
          assert meters[i + 1] == r.value && forall j :: 0 <= j < i + 1 ==> meters[j].meterNumber != num;
        }
      }
      r
  }

  /** With unique meter numbers, the lookup returns the one meter holding the number. */
  lemma {:induction false} FindMeterUnique(meters: seq<Meter>, m: Meter)
    requires forall i, j :: 0 <= i < j < |meters| ==> meters[i].meterNumber != meters[j].meterNumber
    requires m in meters
    ensures FindMeter(meters, m.meterNumber) == Some(m)
  {
    if meters[0] != m {
      FindMeterUnique(meters[1..], m);
    }
  }

  /** `validate`: the five checks in order; `None` when the vend may proceed, else the first failure. */
  function Validate(form: VendForm, meters: seq<Meter>): (r: Option<VendError>)
    ensures Utf16Length(form.meterNumber) != 11 ==> r == Some(InvalidMeterFormat)
    ensures r == None ==>
      (exists m :: m in meters && m.meterNumber == form.meterNumber && m.status == Active)
      && form.amount > 0.0 && Calculate(form).netAmount > 0.0
  {
    if Utf16Length(form.meterNumber) != 11 then Some(InvalidMeterFormat)
    else match FindMeter(meters, form.meterNumber)
      case None => Some(MeterNotFound)
      case Some(m) =>
        if m.status != Active then Some(MeterInactive)
        else if form.amount <= 0.0 then Some(InvalidAmount)
        else if Calculate(form).netAmount <= 0.0 then Some(NonPositiveNetAmount)
        else None
  }

  /** A request passes exactly when all five conditions hold. */
  lemma ValidateAccepts(form: VendForm, meters: seq<Meter>)
    ensures Validate(form, meters) == None <==>
      Utf16Length(form.meterNumber) == 11
      && (exists i :: 0 <= i < |meters| && meters[i].meterNumber == form.meterNumber)
      && FindMeter(meters, form.meterNumber).value.status == Active
      && form.amount > 0.0
      && form.amount - Calculate(form).totalServiceCharge > 0.0
  {
  }

  /** Each error is reported exactly when every earlier check passed and its own check failed. */
  lemma ValidateFirstFailure(form: VendForm, meters: seq<Meter>)
    ensures Validate(form, meters) == Some(InvalidMeterFormat) <==> Utf16Length(form.meterNumber) != 11
    ensures Validate(form, meters) == Some(MeterNotFound) <==>
      Utf16Length(form.meterNumber) == 11 && forall i :: 0 <= i < |meters| ==> meters[i].meterNumber != form.meterNumber
    ensures Validate(form, meters) == Some(MeterInactive) <==>
      Utf16Length(form.meterNumber) == 11 && FindMeter(meters, form.meterNumber).Some?
      && FindMeter(meters, form.meterNumber).value.status == Inactive
    ensures Validate(form, meters) == Some(InvalidAmount) <==>
      Utf16Length(form.meterNumber) == 11 && FindMeter(meters, form.meterNumber).Some?
      && FindMeter(meters, form.meterNumber).value.status == Active && form.amount <= 0.0
    ensures Validate(form, meters) == Some(NonPositiveNetAmount) <==>
      Utf16Length(form.meterNumber) == 11 && FindMeter(meters, form.meterNumber).Some?
      && FindMeter(meters, form.meterNumber).value.status == Active && form.amount > 0.0
      && Calculate(form).netAmount <= 0.0
  {
  }

  /** A flat charge equal to the amount leaves nothing to vend. */
  lemma FlatChargeEqualToAmountRejected(form: VendForm, meters: seq<Meter>)
    requires Utf16Length(form.meterNumber) == 11 && FindMeter(meters, form.meterNumber).Some?
    requires FindMeter(meters, form.meterNumber).value.status == Active
    requires form.serviceChargeType == Flat && form.amount > 0.0 && form.serviceCharge == form.amount
    ensures Validate(form, meters) == Some(NonPositiveNetAmount)
  {
  }

  /**
   * The only format check is the length, which is enough because the input
   * handler keeps digits only: for an all-digit number, the length test and
   * the registry's 11-digit pattern agree.
   */
  lemma LengthCheckSuffices(form: VendForm, meters: seq<Meter>)
    requires AllDigits(form.meterNumber)
    ensures Validate(form, meters) != Some(InvalidMeterFormat) <==> Meters.ValidMeterNumber(form.meterNumber)
  {
    DigitsUtf16Length(form.meterNumber);
    Meters.ValidMeterNumberIff(form.meterNumber);
  }

  /** A validated request names an existing, active meter with a well-formed number. */
  lemma ValidatedVendHasActiveMeter(form: VendForm, meters: seq<Meter>)
    requires AllDigits(form.meterNumber)
    requires Validate(form, meters) == None
    ensures Meters.ValidMeterNumber(form.meterNumber)
    ensures exists m :: m in meters && m.meterNumber == form.meterNumber && m.status == Active
    ensures Calculate(form).netAmount > 0.0 && form.amount > 0.0
  {
    DigitsUtf16Length(form.meterNumber);
    Meters.ValidMeterNumberIff(form.meterNumber);
    var m := FindMeter(meters, form.meterNumber).value;
    assert m in meters && m.meterNumber == form.meterNumber && m.status == Active;
  }

  // ---------------------------------------------------------------------------
  // Token codes: four groups `Math.floor(1000 + Math.random() * 9000)` joined by spaces.

  /** One `Math.random()` draw. */
  predicate ValidDraw(r: real) { 0.0 <= r < 1.0 }

  predicate ValidDraws(draws: seq<real>)
  {
    |draws| == 4 && forall i :: 0 <= i < 4 ==> ValidDraw(draws[i])
  }

  function CodeGroup(r: real): (g: int)
    requires ValidDraw(r)
    ensures 1000 <= g <= 9999
  {
    (1000.0 + r * 9000.0).Floor
  }

  function CodeGroups(draws: seq<real>): (g: seq<nat>)
    requires ValidDraws(draws)
    ensures |g| == 4 && forall i :: 0 <= i < 4 ==> 1000 <= g[i] <= 9999
  {
    seq(4, i requires 0 <= i < 4 => CodeGroup(draws[i]) as nat)
  }

  predicate InCodeRange(g: seq<nat>)
  {
    |g| == 4 && forall i :: 0 <= i < 4 ==> 1000 <= g[i] <= 9999
  }

  function FormatCode(g: seq<nat>): (code: string)
    requires |g| == 4
    ensures DigitsAndSpaces(code)
    ensures StartsWith(code, DecimalString(g[0]))
  {
    var parts := [DecimalString(g[0]), DecimalString(g[1]), DecimalString(g[2]), DecimalString(g[3])];
    JoinDigitGroups(parts);
    JoinStartsWithFirst(parts, " ");
    Join(parts, " ")
  }

  /** Reads a code back: four digit groups at fixed positions separated by single spaces. */
  function ParseCode(code: string): Option<seq<nat>>
  {
    if |code| == 19 && code[4] == ' ' && code[9] == ' ' && code[14] == ' '
      && AllDigits(code[0..4]) && AllDigits(code[5..9]) && AllDigits(code[10..14]) && AllDigits(code[15..19])
    then Some([DecimalValue(code[0..4]), DecimalValue(code[5..9]), DecimalValue(code[10..14]), DecimalValue(code[15..19])])
    else None
  }

  lemma CodeLayout(g: seq<nat>)
    requires InCodeRange(g)
    ensures var code := FormatCode(g);
      |code| == 19 && code[0..4] == DecimalString(g[0]) && code[4] == ' '
      && code[5..9] == DecimalString(g[1]) && code[9] == ' '
      && code[10..14] == DecimalString(g[2]) && code[14] == ' '
      && code[15..19] == DecimalString(g[3])
  {
    FourDigitLength(g[0]);
    FourDigitLength(g[1]);
    FourDigitLength(g[2]);
    FourDigitLength(g[3]);
    var a, b, c, d := DecimalString(g[0]), DecimalString(g[1]), DecimalString(g[2]), DecimalString(g[3]);
    assert Join([c, d], " ") == c + " " + d;
    assert [b, c, d][1..] == [c, d];
    assert Join([b, c, d], " ") == b + " " + (c + " " + d);
    assert [a, b, c, d][1..] == [b, c, d];
    var code := a + " " + (b + " " + (c + " " + d));
    assert FormatCode(g) == code;
    assert code[0..4] == a;
    assert code[5..9] == b;
    assert code[10..14] == c;
    assert code[15..19] == d;
  }

  /** Formatting four groups in range and reading the code back gives the groups. */
  lemma CodeRoundTrip(g: seq<nat>)
    requires InCodeRange(g)
    ensures ParseCode(FormatCode(g)) == Some(g)
  {
    CodeLayout(g);
    DecimalRoundTrip(g[0]);
    DecimalRoundTrip(g[1]);
    DecimalRoundTrip(g[2]);
    DecimalRoundTrip(g[3]);
    assert [g[0], g[1], g[2], g[3]] == g;
  }

  /** `generateRandomToken`: four groups, each in [1000, 9999], separated by single spaces. */
  function GenerateRandomToken(draws: seq<real>): (code: string)
    requires ValidDraws(draws)
    ensures |code| == 19 && code[4] == ' ' && code[9] == ' ' && code[14] == ' '
    ensures ParseCode(code) == Some(CodeGroups(draws))
    ensures forall i :: 0 <= i < 4 ==> 1000 <= ParseCode(code).value[i] <= 9999
  {
    var g := CodeGroups(draws);
    CodeRoundTrip(g);
    CodeLayout(g);
    FormatCode(g)
  }

  // ---------------------------------------------------------------------------
  // Minting

  /** The values `crypto.randomUUID()`, `Math.random()` and `new Date()` supply for one token. */
  datatype MintEntropy = MintEntropy(id: string, draws: seq<real>, createdAt: int)

  /** `for (let i = 0; i < n; i++)` runs `n` times, or not at all when `n` is not positive. */
  function TokenCount(n: int): nat { if n > 0 then n else 0 }

  /** The token the loop builds for one set of random values. */
  predicate MintedFrom(t: Token, form: VendForm, meter: Meter, userId: string, e: MintEntropy)
    requires ValidDraws(e.draws)
  {
    var b := Calculate(form);
    t.id == e.id && t.tokenCode == GenerateRandomToken(e.draws) && t.createdAt == e.createdAt
    && t.meterId == meter.id && t.meterNumber == meter.meterNumber
    && t.amount == form.amount && t.tariffRate == form.tariffRate
    && t.serviceCharge == form.serviceCharge && t.serviceChargeType == form.serviceChargeType
    && t.totalServiceCharge == b.totalServiceCharge && t.netAmount == b.netAmount && t.units == b.units
    && t.generatedBy == userId
  }

  /** Two tokens of one vend differ at most in id, code and timestamp. */
  predicate SameVend(t: Token, u: Token)
  {
    t.meterId == u.meterId && t.meterNumber == u.meterNumber && t.amount == u.amount
    && t.tariffRate == u.tariffRate && t.serviceCharge == u.serviceCharge
    && t.serviceChargeType == u.serviceChargeType && t.totalServiceCharge == u.totalServiceCharge
    && t.netAmount == u.netAmount && t.units == u.units && t.generatedBy == u.generatedBy
  }

  /** A token whose breakdown is internally consistent, as every minted token is. */
  predicate WellFormed(t: Token)
  {
    t.netAmount == t.amount - t.totalServiceCharge && t.units >= 0.0
  }

  /** The loop of `handleFinalVend`: one token per iteration, pushed in order. */
  method MintTokens(form: VendForm, meter: Meter, userId: string, entropy: seq<MintEntropy>)
    returns (newTokens: seq<Token>)
    requires |entropy| == TokenCount(form.numberOfTokens)
    requires forall k :: 0 <= k < |entropy| ==> ValidDraws(entropy[k].draws)
    ensures |newTokens| == TokenCount(form.numberOfTokens)
    ensures forall k :: 0 <= k < |newTokens| ==> MintedFrom(newTokens[k], form, meter, userId, entropy[k])
    ensures forall k :: 0 <= k < |newTokens| ==> WellFormed(newTokens[k]) && newTokens[k].generatedBy == userId
    ensures forall k, l :: 0 <= k < |newTokens| && 0 <= l < |newTokens| ==> SameVend(newTokens[k], newTokens[l])
  {
    var b := Calculate(form);
    newTokens := [];
    var i := 0;
    while i < form.numberOfTokens
      invariant 0 <= i <= |entropy| && |newTokens| == i
      invariant forall k :: 0 <= k < i ==> MintedFrom(newTokens[k], form, meter, userId, entropy[k])
    {
      var e := entropy[i];
      var t := Token(
        e.id, GenerateRandomToken(e.draws), meter.id, meter.meterNumber,
        form.amount, form.tariffRate, form.serviceCharge, form.serviceChargeType,
        b.totalServiceCharge, b.netAmount, b.units, userId, e.createdAt);
      newTokens := newTokens + [t];
      i := i + 1;
    }
  }

  /** `tokens.filter(t => t.generatedBy === userId)`: the tokens this user generated, in list order. */
  function UserTokens(tokens: seq<Token>, userId: string): (r: seq<Token>)
    ensures IsSubseq(r, tokens)
    ensures forall i :: 0 <= i < |r| ==> r[i].generatedBy == userId
    ensures forall i :: 0 <= i < |tokens| && tokens[i].generatedBy == userId ==> tokens[i] in r
    ensures forall t :: multiset(r)[t] == if t.generatedBy == userId then multiset(tokens)[t] else 0
  {
    FilterIsSubseq(ByUser(userId), tokens);
    FilterMembers(ByUser(userId), tokens);
    FilterMultiset(ByUser(userId), tokens);
    Filter(ByUser(userId), tokens)
  }

  /** `userLast5`: the first five of the user's own tokens, in list order. */
  function UserLast5(tokens: seq<Token>, userId: string): (r: seq<Token>)
    ensures |r| <= 5
    ensures forall k :: 0 <= k < |r| ==> r[k].generatedBy == userId
    ensures IsSubseq(r, tokens)
    ensures r <= UserTokens(tokens, userId)
    ensures |r| == if |UserTokens(tokens, userId)| < 5 then |UserTokens(tokens, userId)| else 5
  {
    var mine := UserTokens(tokens, userId);
    var k := if |mine| < 5 then |mine| else 5;
    assert IsSubseq(mine[..k], tokens) by {
      PrefixIsSubseq(mine, k);
      SubseqTransitive(mine[..k], mine, tokens);
    }
    mine[..k]
  }

  // ---------------------------------------------------------------------------
  // The page state

  class VendingPage {
    const user: User
    const meters: seq<Meter>
    var tokens: seq<Token>
    var form: VendForm
    var error: string
    var vendingSuccess: Option<seq<Token>>
    var isConfirming: bool
    var isLoading: bool

    /** The meter number field only ever holds digits. */
    ghost predicate Valid()
      reads this
    {
      AllDigits(form.meterNumber)
    }

    /** The meter and token lists are whatever was saved before. */
    constructor(user: User, savedMeters: seq<Meter>, savedTokens: seq<Token>)
      ensures Valid()
      ensures this.user == user && meters == savedMeters && tokens == savedTokens
      ensures form == DefaultForm && error == "" && vendingSuccess == None
      ensures !isConfirming && !isLoading
    {
      this.user := user;
      meters := savedMeters;
      tokens := savedTokens;
      form := DefaultForm;
      error := "";
      vendingSuccess := None;
      isConfirming := false;
      isLoading := false;
    }

    /** The meter number input's change handler: every non-digit is dropped. */
    method SetMeterNumber(typed: string)
      modifies this
      ensures Valid()
      ensures form == old(form).(meterNumber := StripNonDigits(typed))
      ensures tokens == old(tokens) && error == old(error) && vendingSuccess == old(vendingSuccess)
      ensures isConfirming == old(isConfirming) && isLoading == old(isLoading)
    {
      form := form.(meterNumber := StripNonDigits(typed));
    }

    /** The token count field, as `parseInt(...) || 1` produced it. */
    method SetNumberOfTokens(count: int)
      modifies this
      ensures form == old(form).(numberOfTokens := count)
      ensures tokens == old(tokens) && error == old(error) && vendingSuccess == old(vendingSuccess)
      ensures isConfirming == old(isConfirming) && isLoading == old(isLoading)
    {
      form := form.(numberOfTokens := count);
    }

    /** The amount field, as `parseFloat(...) || 0` produced it. */
    method SetAmount(amount: real)
      modifies this
      ensures form == old(form).(amount := amount)
      ensures tokens == old(tokens) && error == old(error) && vendingSuccess == old(vendingSuccess)
      ensures isConfirming == old(isConfirming) && isLoading == old(isLoading)
    {
      form := form.(amount := amount);
    }

    /** The tariff rate field, as `parseFloat(...) || 0` produced it. */
    method SetTariffRate(rate: real)
      modifies this
      ensures form == old(form).(tariffRate := rate)
      ensures tokens == old(tokens) && error == old(error) && vendingSuccess == old(vendingSuccess)
      ensures isConfirming == old(isConfirming) && isLoading == old(isLoading)
    {
      form := form.(tariffRate := rate);
    }

    /** The service charge type select: flat fee or percentage. */
    method SetServiceChargeType(chargeType: ServiceChargeType)
      modifies this
      ensures form == old(form).(serviceChargeType := chargeType)
      ensures tokens == old(tokens) && error == old(error) && vendingSuccess == old(vendingSuccess)
      ensures isConfirming == old(isConfirming) && isLoading == old(isLoading)
    {
      form := form.(serviceChargeType := chargeType);
    }

    /** The service charge field, as `parseFloat(...) || 0` produced it. */
    method SetServiceCharge(charge: real)
      modifies this
      ensures form == old(form).(serviceCharge := charge)
      ensures tokens == old(tokens) && error == old(error) && vendingSuccess == old(vendingSuccess)
      ensures isConfirming == old(isConfirming) && isLoading == old(isLoading)
    {
      form := form.(serviceCharge := charge);
    }

    /** `initiateVend`: clear the error, validate, and open the confirmation on success. */
    method InitiateVend()
      modifies this
      ensures Validate(form, meters) == None ==> error == "" && isConfirming
      ensures Validate(form, meters).Some? ==>
        error == Message(Validate(form, meters).value) && isConfirming == old(isConfirming)
      ensures form == old(form) && tokens == old(tokens) && vendingSuccess == old(vendingSuccess)
      ensures isLoading == old(isLoading)
      ensures Valid() ==>
        (Validate(form, meters) != Some(InvalidMeterFormat) <==> Meters.ValidMeterNumber(form.meterNumber))
    {
      if Valid() {
        LengthCheckSuffices(form, meters);
      }
      error := "";
      var outcome := Validate(form, meters);
      if outcome.None? {
        isConfirming := true;
      } else {
        error := Message(outcome.value);
      }
    }

    /**
     * `handleFinalVend`: mint the requested tokens against the form's meter,
     * put them in front of the list, and reset the amount.
     */
    method FinalVend(entropy: seq<MintEntropy>)
      requires isConfirming
      requires FindMeter(meters, form.meterNumber).Some?
      requires |entropy| == TokenCount(form.numberOfTokens)
      requires forall k :: 0 <= k < |entropy| ==> ValidDraws(entropy[k].draws)
      modifies this
      ensures vendingSuccess.Some? && |vendingSuccess.value| == TokenCount(old(form).numberOfTokens)
      ensures tokens == vendingSuccess.value + old(tokens)
      ensures forall k :: 0 <= k < |vendingSuccess.value| ==>
        MintedFrom(vendingSuccess.value[k], old(form), FindMeter(meters, old(form).meterNumber).value, user.id, entropy[k])
      ensures form == old(form).(amount := 0.0)
      ensures !isConfirming && !isLoading && error == old(error)
      ensures old(Valid()) ==> Valid()
    {
      isConfirming := false;
      var meter := FindMeter(meters, form.meterNumber).value;
      var newTokens := MintTokens(form, meter, user.id, entropy);
      tokens := newTokens + tokens;
      vendingSuccess := Some(newTokens);
      isLoading := false;
      form := form.(amount := 0.0);
    }

    /** The confirmation's Cancel button: back to the form, nothing vended. */
    method CancelConfirm()
      modifies this
      ensures !isConfirming
      ensures form == old(form) && tokens == old(tokens) && error == old(error)
      ensures vendingSuccess == old(vendingSuccess) && isLoading == old(isLoading)
    {
      isConfirming := false;
    }

    /** The result panel's button: the minted tokens are no longer shown. */
    method DismissResult()
      modifies this
      ensures vendingSuccess == None
      ensures form == old(form) && tokens == old(tokens) && error == old(error)
      ensures isConfirming == old(isConfirming) && isLoading == old(isLoading)
    {
      vendingSuccess := None;
    }

    /** `userLast5` of the current list. */
    function Last5(): seq<Token>
      reads this
    {
      UserLast5(tokens, user.id)
    }
  }

  /** After a vend of k tokens by this user, the user's last five start with the new tokens. */
  lemma {:induction false} Last5AfterVend(newTokens: seq<Token>, old_: seq<Token>, userId: string, k: nat)
    requires forall j :: 0 <= j < |newTokens| ==> newTokens[j].generatedBy == userId
    requires k < |newTokens| && k < 5
    ensures k < |UserLast5(newTokens + old_, userId)| && UserLast5(newTokens + old_, userId)[k] == newTokens[k]
  {
    var p := ByUser(userId);
    FilterAllKept(p, newTokens);
    FilterConcat(p, newTokens, old_);
  }
}

=== FILE: types.dfy ===
/**
 * The records and enumerations of the application (types.ts).
 * Identifiers and free text are strings, money is `real`, and every
 * ISO timestamp is its millisecond value as an `int`.
 */
module Types {
  import opened Wrappers

  datatype UserRole = Admin | Officer | Accountant

  datatype User = User(id: string, name: string, email: string, role: UserRole, createdAt: int)

  datatype MeterStatus = Active | Inactive

  datatype Meter = Meter(
    id: string,
    meterNumber: string,
    tenantName: string,
    property: string,
    unit: string,
    status: MeterStatus,
    createdAt: int)

  datatype ServiceChargeType = Flat | Percentage

  datatype Token = Token(
    id: string,
    tokenCode: string,
    meterId: string,
    meterNumber: string,
    amount: real,
    tariffRate: real,
    serviceCharge: real,
    serviceChargeType: ServiceChargeType,
    totalServiceCharge: real,
    netAmount: real,
    units: real,
    generatedBy: string,
    createdAt: int)

  /** The session: `user` and `token` are `null` when nobody is logged in. */
  datatype AuthState = AuthState(user: Option<User>, token: Option<string>, isAuthenticated: bool)

  /** `t => t.generatedBy === userId`: the tokens one user vended. */
  function ByUser(userId: string): Token -> bool
  {
    (t: Token) => t.generatedBy == userId
  }

  // The numeric columns that the pages add up.

  function AmountOf(t: Token): real { t.amount }
  function ChargeOf(t: Token): real { t.totalServiceCharge }
  function UnitsOf(t: Token): real { t.units }
  function NetOf(t: Token): real { t.netAmount }
}

=== FILE: wrappers.dfy ===
/** The optional value used wherever the source has `null`, `undefined` or an empty form field. */
module Wrappers {
  datatype Option<+T> = None | Some(value: T)
}
